=== FILE: README.md ===
# Blicky Wally image maintenance, modelled in Dafny

Blicky Wally is a wallpaper gallery. Its images live in `./Images`: one folder per category, plus loose images directly in `./Images`, which form the category `other`. Two small tools keep the gallery in order. Each exists as a Python script and as a JavaScript script.

- **generate-image-data** scans `./Images`. It builds the map from category to image names: a folder holding images becomes a category, and the loose images are appended to `other`. It shows the number of images in each category and the total. Then it replaces the `const imageData = {...};` block of `index.html` with the fresh map. The Python script asks first; the JavaScript one does not.
- **rename-images** plans a new name `--bg-<category>-<number><ext>` for every image.
  - The category is lower-cased. Each run of characters outside `a-z0-9` becomes one `-`, and dashes at either end are stripped.
  - The number is zero-padded to 2, 3 or 4 digits, depending on the size of the category.
  - Folder images are numbered in sorted order. The loose images of `other` are numbered in listing order, in a second pass.
  - The Python script shows the plan: up to five renames per category, and for a category of more than seven an elision line and the last two. The renames are then executed:
    - a missing source is skipped;
    - an occupied target is skipped;
    - an unchanged name is skipped;
    - an operating-system error is counted as a failure.
  - The Python script renames only when `DRY_RUN` is off and the answer is `yes`. The JavaScript script renames at once.

The model in brief:

- A directory listing is a value: `Entry = File(name) | Folder(name, listing)`. A listing of `None` is a folder that cannot be read.
- A Python dict or JavaScript object is an insertion-ordered `Dict` (`dicts.dfy`).
- The file system seen by the executor is a `FileTree` class whose `paths` set is changed only by `Rename`.
- Each script's loops are methods. Each is proved equal to a specification function: `Scan`, `PlanOf`, `Run`, `Tally`. The properties are lemmas about those functions.

Files:

- `text.dfy`: lower-casing, `strip()`, code-point order and the sort used by `sorted` and `Array.prototype.sort`.
- `listing.dfy`: entries, `Path.suffix` and `path.extname`, the image test, and filtering a listing.
- `dicts.dfy`: the insertion-ordered dictionary and sums over it.
- `image_data.dfy`: the generator's scan, the total, and the per-category statistics.
- `html_splice.dfy`: finding and replacing the `imageData` block.
- `generator.dfy`: the generator's prompt and its two `main` functions.
- `file_names.dfy`: `generate_new_filename`.
- `rename_plan.dfy`: `get_images_from_dir` (sorted) and `plan_renames`.
- `plan_props.dfy`: what the plan contains.
- `display.dfy`: which renames `display_plan` lists.
- `rename_exec.dfy`: `execute_renames` and the renamer's two `main` functions.

## Model

| member | source | states |
|---|---|---|
| Text.StripStart | Image_update/rename-images.py:234 | the left strip of `strip()`: the result is a suffix of the input, it does not start with whitespace, and everything removed is whitespace |
| Text.StripEnd | Image_update/rename-images.py:234 | the right strip of `strip()`: the result is a prefix of the input, it does not end with whitespace, and everything removed is whitespace |
| Text.TrimCons | Image_update/generate-image-data.py:130 | whitespace in front of the answer does not change the stripped answer |
| Text.TrimSnoc | Image_update/generate-image-data.py:130 | whitespace after the answer does not change the stripped answer |
| Text.NormalizeIgnoresCase | Image_update/rename-images.py:234 | `strip().lower()` gives the same text for an answer and for its lower-cased form |
| Text.SortBySorted | Image_update/rename-images.py:23 | the sort yields a list ordered by code points |
| Text.SortByPermutes | Image_update/rename-images.py:23 | the sort yields a permutation of its input (the same multiset) |
| Listing.JoinInjective | Image_update/rename-images.py:88-89 | joining a name onto one folder keeps different names apart |
| Listing.LastDot | Image_update/rename-images.py:29 | the index found is the last `.` of the name, or -1 when there is none |
| Listing.SuffixAgreesWithExtName | Image_update/rename-images.js:24 | `path.extname` accepts exactly the names whose `Path.suffix` is supported, and on those both give the same extension |
| Listing.ImageSuffixShape | Image_update/generate-image-data.py:15 | a supported suffix is a dot followed by 3 or 4 characters, none of them a dot, and it is shorter than the name |
| Listing.SelectExact | Image_update/generate-image-data.py:23-33 | the loop keeps exactly the accepted entries, in listing order: the k-th name is the k-th accepted entry, positions increase, and no accepted entry is missed |
| Listing.ImageNamesAreImages | Image_update/generate-image-data.py:30-33 | every name collected has a supported suffix |
| Listing.SortThenFilterIsFilterThenSort | Image_update/rename-images.js:12-33 | filtering then sorting gives the same list as sorting then filtering, both by code-point order (see `Text.LexLe` under Left out for JavaScript's order) |
| Listing.SortedImagesSpec | Image_update/rename-images.py:18-35 | the renamer's listing is sorted and is a permutation of the folder's images |
| Dicts.PutKeys | Image_update/generate-image-data.py:52 | storing under a key keeps the key order when the key exists and appends the key when it is new; it sets that key's value and leaves every other key's value unchanged |
| Dicts.SumByPermutation | Image_update/generate-image-data.py:106-111 | a sum over the categories does not depend on the order they are visited in |
| ImageData.GetImagesFromDir | Image_update/generate-image-data.py:18-37 | the loop returns the folder's images in listing order, and nothing for an unreadable folder |
| ImageData.AddEntry | Image_update/generate-image-data.py:46-59 | one loop pass is one scanning step: a folder with images stores (or overwrites) its category, and a loose image is appended to `other`, which is created when missing |
| ImageData.GenerateImageData | Image_update/generate-image-data.py:40-64 | the map built is the scan of the listing; an unreadable Images folder exits |
| ImageData.ScanWellFormed | Image_update/generate-image-data.py:48-59 | no category is stored empty, and every stored name is an image |
| ImageData.ScanKeys | Image_update/generate-image-data.py:45-59 | every category is `other` or the name of a folder in the listing |
| ImageData.ScanOther | Image_update/generate-image-data.py:53-59 | without a folder called `other`, `other` exists exactly when there are loose images, and it holds them in listing order |
| ImageData.ScanFolder | Image_update/generate-image-data.py:48-52 | with distinct folder names, a folder is a category exactly when it holds images, and then maps to them |
| ImageData.ScanTotal | Image_update/generate-image-data.py:67-69 | without a folder called `other` and with distinct folder names, the total is the number of loose images plus the images inside the folders |
| ImageData.SortedTotal | Image_update/generate-image-data.py:106-111 | summing in sorted category order gives the unordered total |
| ImageData.DisplayStats | Image_update/generate-image-data.py:101-116 | the total the loop accumulates is the number of images in the map |
| ImageData.OtherFolderOverwrites | Image_update/generate-image-data.py:52 | a loose image listed before a folder called `other` is lost: the folder's images replace the category |
| ImageData.OtherFolderAppends | Image_update/generate-image-data.py:57-59 | a loose image listed after a folder called `other` is appended to that folder's images |
| HtmlSplice.IndexOf | Image_update/generate-image-data.py:82 | the first occurrence of a text at or after a position, or none when there is none |
| HtmlSplice.FindBlockSpec | Image_update/generate-image-data.py:82-85 | the block found is what the lazy regular expression matches (the leftmost start, the shortest end), and none is found exactly when there is no match |
| HtmlSplice.SpliceSpec | Image_update/generate-image-data.py:86 | without a block the page is unchanged; with one, the text before the first block is kept and the block is replaced, once (JavaScript) or again after it (Python) |
| HtmlSplice.SingleMarkerSplicesAgree | Image_update/generate-image-data.js:84 | when the opening text occurs once, replacing every block and replacing the first give the same page |
| HtmlSplice.UpdateIndexHtml | Image_update/generate-image-data.py:72-98 | success exactly when the page is read, holds a block and is written back; then the page is the spliced one, otherwise it is unchanged |
| Generator.AcceptsUpdatePadding | Image_update/generate-image-data.py:130-132 | whitespace around the answer never changes the decision |
| Generator.AcceptsUpdateIgnoresCase | Image_update/generate-image-data.py:130-132 | the decision ignores case |
| Generator.AcceptsExactly | Image_update/generate-image-data.py:130-132 | an answer is accepted if and only if it strips to `y` or `yes` in any case |
| Generator.MainPython | Image_update/generate-image-data.py:119-139 | exits on an unreadable folder; otherwise it shows the total, and updates the page exactly when the answer is accepted (every block replaced), leaving it unchanged otherwise |
| Generator.MainNode | Image_update/generate-image-data.js:122-132 | exits on an unreadable folder; otherwise it shows the total and always attempts the update (first block only) |
| FileNames.SanitizeIsClean | Image_update/rename-images.py:51 | the cleaned category has only `a-z0-9` and single dashes, none at either end |
| FileNames.SanitizeIdempotent | Image_update/rename-images.py:51 | cleaning a cleaned category changes nothing |
| FileNames.Digits | Image_update/rename-images.py:48 | `str(index)` is a non-empty string of digits with no leading zero, one digit exactly below 10 |
| FileNames.ParseDigits | Image_update/rename-images.py:48 | `str(index)` read back as a decimal number is the index |
| FileNames.FormatIndexSpec | Image_update/rename-images.py:40-48 | the number has the padding width or more digits, only digits, and reads back as the index |
| FileNames.FormatIndexOrder | Image_update/rename-images.py:40-48 | for 1 <= i < j <= total < 10000 both numbers have exactly the padding width and compare as i < j |
| FileNames.FormatIndexOrderBreaks | Image_update/rename-images.py:41-48 | from 10000 images on, number 10000 sorts before number 9999 |
| FileNames.NewFilenameInjective | Image_update/rename-images.py:38-53 | two new names of one category and total are equal only when their indices are |
| FileNames.NewFilenameOrder | Image_update/rename-images.py:38-53 | below 10000 images, new names sort in the order of their numbers whatever the extensions |
| FileNames.NewFilenameKeepsSuffix | Image_update/rename-images.py:82-83 | the new name keeps the image's suffix and is still an image name |
| RenamePlan.SortedCollectSpec | Image_update/rename-images.py:18-35 | the sorted listing holds as many names as the unsorted one, the same multiset, in sorted order |
| RenamePlan.GetSortedImagesFromDir | Image_update/rename-images.py:18-35 | the loop over the sorted listing returns the folder's images in sorted order |
| RenamePlan.PlanCategory | Image_update/rename-images.py:81-90 | image m of n gets number m + 1 of n, its own suffix, and both paths inside the folder |
| RenamePlan.RenumberPlaceholders | Image_update/rename-images.py:110-117 | numbering the placeholders of `other` gives the renames of a folder `other` at the Images folder |
| RenamePlan.AddPlanEntry | Image_update/rename-images.py:68-108 | one loop pass is one planning step: a folder with images becomes a category and is counted, and a loose image becomes a placeholder in `other` |
| RenamePlan.RenumberOther | Image_update/rename-images.py:111-117 | the in-place second pass gives rename m of n its number m + 1 and a new path in the Images folder, keeping the old name and path |
| RenamePlan.PlanRenames | Image_update/rename-images.py:56-126 | the plan built is the planning function of the listing; an unreadable Images folder exits |
| PlanProps.CategoryRenamesDistinct | Image_update/rename-images.py:81-90 | a folder's renames have distinct new names and distinct new paths, keep the old names in order, and keep every suffix |
| PlanProps.CategoryRenamesOrdered | Image_update/rename-images.py:81-90 | below 10000 images, the new names of a folder increase in the order of the sorted old names |
| PlanProps.RenumberDistinct | Image_update/rename-images.py:113-117 | the second pass gives `other` distinct new names and leaves the old names and paths alone |
| PlanProps.FirstPassKeys | Image_update/rename-images.py:67-108 | every category is `other` or a folder of the listing |
| PlanProps.FirstPassOther | Image_update/rename-images.py:94-108 | without a folder called `other`, after the loop `other` exists exactly when there are loose images, and holds them as placeholders in listing order |
| PlanProps.FirstPassFolder | Image_update/rename-images.py:70-93 | with distinct folder names, after the loop a folder is a category exactly when it holds images, and it holds their renames |
| PlanProps.FirstPassFiles | Image_update/rename-images.py:92 | after the loop the file total is the number of images inside folders |
| PlanProps.PlanOther | Image_update/rename-images.py:94-120 | without a folder called `other`, `other` exists exactly when there are loose images, and numbers them in listing order at the Images folder |
| PlanProps.PlanFolder | Image_update/rename-images.py:70-93 | with distinct folder names, a folder is a category exactly when it holds images, and its renames number its sorted images |
| PlanProps.PlanNamesDistinct | Image_update/rename-images.py:56-126 | for every listing, no two renames of one category share a new name |
| PlanProps.PlanTotals | Image_update/rename-images.py:92-120 | without a folder called `other`, the totals are the number of renames and of categories, and equal the generator's total |
| PlanProps.OtherFolderPlan | Image_update/rename-images.py:110-120 | for an Images folder holding only a folder called `other`, the plan is that folder's category renumbered a second time as loose images, with its files and the category counted twice |
| PlanProps.PlanOtherNewPaths | Image_update/rename-images.py:110-117 | for every listing, the renames of `other` are numbered 1..n in plan order and their new paths lie directly in the Images folder |
| PlanProps.OtherFolderDoubleCounts | Image_update/rename-images.py:119-120 | for an Images folder holding only a folder called `other`, the reported file total is twice the number of renames and the category total is 2 for the one category |
| PlanProps.OtherFolderMovesOut | Image_update/rename-images.py:117 | for an Images folder holding only a folder called `other`, its images are planned to move out of that folder into the Images folder |
| PlanDisplay.ShownRowsAccounts | Image_update/rename-images.py:144-161 | as written, for every size but 6 and 7, each rename is listed or counted on the elision line |
| PlanDisplay.ShownRowsHidesSixth | Image_update/rename-images.py:144-161 | as written, a category of six lists five renames and has no elision line, so the sixth is not accounted for |
| PlanDisplay.ShownRowsAccountsExactly | Image_update/rename-images.py:144-161 | as written, every rename is listed or counted exactly when the category does not hold 6 or 7 renames |
| PlanDisplay.DisplayRowsAccounts | Image_update/rename-images.py:144-161 | corrected: every rename is listed or counted, and the listing agrees with the original for every size but 6 and 7 |
| RenameExec.FileTree.Rename | Image_update/rename-images.py:196 | a rename succeeds exactly when no error is reported and the source exists; then the source path is replaced by the target |
| RenameExec.Step | Image_update/rename-images.py:181-201 | the outcome of one rename, each case exactly when the checks before it pass: a missing source is skipped; then a target that exists and differs from the source is skipped; then an unchanged name is skipped; then an operating-system error is a failure; otherwise the rename succeeds and moves the source to the target. Only a success changes the paths, and the number of files never changes |
| RenameExec.ExecuteOne | Image_update/rename-images.py:181-201 | one iteration does what the step function says, on the file tree |
| RenameExec.ExecuteCategory | Image_update/rename-images.py:180-201 | the inner loop extends the run of all earlier renames by the category's renames |
| RenameExec.ExecuteRenames | Image_update/rename-images.js:136-171 | the counters and the final file tree are those of running every planned rename, category by category in stored order |
| RenameExec.RunCountsAddUp | Image_update/rename-images.js:144-166 | every rename is counted exactly once, as renamed, skipped or failed |
| RenameExec.RunWithoutFailures | Image_update/rename-images.js:164-166 | when no rename raises, the error count is zero |
| RenameExec.RunKeepsFileCount | Image_update/rename-images.py:187-197 | executing a plan never changes the number of files: an occupied target is never overwritten |
| RenameExec.RunFrame | Image_update/rename-images.py:196 | a path that no rename names is untouched |
| RenameExec.StepRenamedMoves | Image_update/rename-images.py:196-197 | after a counted rename the new path exists and the old one is gone, unless the two are the same |
| RenameExec.DisplayPlan | Image_update/rename-images.py:129-161 | each category of the plan exactly once, in sorted order; each entry names a category of the plan and accounts for every one of its renames (corrected rows), and the rows are those of `display_plan` as written for every size but 6 and 7 |
| RenameExec.MainRenamePython | Image_update/rename-images.py:210-239 | renames exactly when the folder is readable, dry-run is off and the answer normalises to `yes`; an unreadable folder exits, a dry run only shows the plan, any other answer cancels, and then nothing is renamed |
| RenameExec.MainRenameNode | Image_update/rename-images.js:176-193 | exits on an unreadable folder; otherwise it always executes the whole plan |

## Findings

| source | as written | input that shows it | evidently intended | confidence | as-written member | corrected member |
|---|---|---|---|---|---|---|
| Image_update/rename-images.py:144-161 | lists `min(5, n)` renames and shows the elision line and the last two only when n > 7 | a category of 6 renames: renames 1-5 are listed, the sixth is neither listed nor counted (likewise the sixth and seventh of 7) | every rename listed or counted, as the comment "show first 5 and last 2" promises | medium, not executed | PlanDisplay.ShownRowsHidesSixth | PlanDisplay.DisplayRowsAccounts |

`PlanDisplay.ShownRows` models the rows as written. `PlanDisplay.DisplayRows` lists a category of at most seven renames in full. `RenameExec.DisplayPlan`, and so `RenameExec.MainRenamePython`, use the corrected version (see Left out).

Two behaviours of the code as written are modelled faithfully and stated as lemmas rather than corrected, because the intent is unclear:

- **A subfolder named `other`.** It collides with the category of loose images (`ImageData.OtherFolderOverwrites`, `ImageData.OtherFolderAppends`). In the renamer it is counted twice and its images are planned to move out of their folder (`PlanProps.OtherFolderDoubleCounts`, `PlanProps.OtherFolderMovesOut`).
- **Categories of 10000 images or more.** The 4-digit padding stops keeping the names in number order (`FileNames.FormatIndexOrderBreaks`).

## Left out

- **File system.** `os.listdir`, `readdirSync`, `isdir` and `statSync` are replaced by a listing given as a value. JavaScript's `statSync` throwing in the middle of a listing is not modelled. That would return the images found so far, or exit during planning.
- **Failed renames.** Errors from `os.rename` / `renameSync` are a set of positions in the flattened plan whose rename fails. The target of a rename must not exist, as the scripts check, so a race with other processes is not modelled.
- **Console output and JSON.** Console output is not modelled. The JSON produced by `json.dumps` / `JSON.stringify` is an opaque `serialize` parameter. The preview printed when the update is declined is not modelled.
- **Regular expressions.**
  - The regular expressions are modelled by their meaning: the first block from the opening text to the nearest closing text, and for `[^a-z0-9]+` the runs replaced by one dash.
  - The replacement text is inserted literally. The backslash escapes `re.sub` interprets in it, and the `$` patterns of JavaScript's `replace`, are not modelled.
- **Lower-casing.** `lower()` / `toLowerCase()` change ASCII letters only. Unicode case mapping is not modelled.
- Text.StripStart, Text.StripEnd: remove ASCII whitespace only. Python's `strip()` also removes Unicode whitespace such as U+00A0 and U+3000. So the model declines an answer like `yes` followed by U+00A0, which both Python scripts accept. Neither JavaScript script reads an answer.
- Text.LexLe: compares code points, as Python's `sorted` does. JavaScript's `Array.prototype.sort()` compares UTF-16 code units. The two orders differ only for names that mix characters above U+FFFF with characters from U+E000 to U+FFFF. For such names, the JavaScript order, and `Listing.SortThenFilterIsFilterThenSort` read as a statement about JavaScript, are not modelled.
- RenameExec.DisplayPlan: shows the corrected rows (`PlanDisplay.DisplayRows`). A category of six or seven renames is listed in full. `display_plan` as written lists only the first five of them (see Findings). For every other size the rows are those of the script.
- **Key order.** JavaScript objects list integer-like keys first, in numeric order. The model keeps insertion order for all keys, as Python does.
- **A folder named `__proto__`.** In JavaScript, assigning `imageData['__proto__']` or `categories['__proto__']` sets the object's prototype instead of storing a key. `Object.keys` and `JSON.stringify` then omit that category, so the JavaScript generator drops it from the page, and the JavaScript renamer counts its files but never renames them. `Dicts.Put` stores it as an ordinary key, as Python does.
- **Reading and writing index.html.** A failed write is modelled as leaving the page unchanged. That holds when the file cannot be opened for writing. When it opens and the write then fails, the file has already been emptied, which is not modelled.
- **Python version.** `Path.suffix` is modelled as before Python 3.14. From 3.14 a name ending in a dot has the suffix `.`. No supported extension is affected.
- **DRY_RUN.** `DRY_RUN` is a parameter of `RenameExec.MainRenamePython`. The script ships with it set, so as shipped it never renames.
- **Building the plan.**
  - The planning loop builds each category's renames and then stores them. The scripts append to the stored list. The result is the same.
  - The Python executor has no skip counter. The model counts skips for both scripts; Python does not report them.

=== FILE: dicts.dfy ===
/** The insertion-ordered dictionary both scripts build (a Python `dict`, a
    JavaScript object): the keys in the order they were first stored, and the
    value stored under each. */
module Dicts {

  datatype Dict<V> = Dict(keys: seq<string>, values: map<string, V>)

  predicate Distinct(ks: seq<string>)
  {
    forall i, j :: 0 <= i < j < |ks| ==> ks[i] != ks[j]
  }

  ghost predicate Valid<V>(d: Dict<V>)
  {
    Distinct(d.keys) && (forall k :: k in d.values <==> k in d.keys)
  }

  function Empty<V>(): (d: Dict<V>)
    ensures Valid(d) && d.keys == []
  {
    Dict([], map[])
  }

  /** `d[k] = v`: a key already present keeps its place and takes the new
      value; a new key goes last. */
  function Put<V>(d: Dict<V>, k: string, v: V): (r: Dict<V>)
    requires Valid(d)
    ensures Valid(r)
  {
    if k in d.values then Dict(d.keys, d.values[k := v])
    else Dict(d.keys + [k], d.values[k := v])
  }

  /** A store adds a key exactly when the key is new. */
  lemma PutKeys<V>(d: Dict<V>, k: string, v: V)
    requires Valid(d)
    ensures Put(d, k, v).keys == if k in d.values then d.keys else d.keys + [k]
    ensures |Put(d, k, v).keys| == |d.keys| + (if k in d.values then 0 else 1)
    ensures k in Put(d, k, v).values && Put(d, k, v).values[k] == v
    ensures forall k' :: k' != k && k' in d.values ==> k' in Put(d, k, v).values && Put(d, k, v).values[k'] == d.values[k']
  {
  }

  /** The sum of `size` over the values stored under `ks`. */
  function SumBy<V>(ks: seq<string>, m: map<string, V>, size: V -> nat): nat
    requires forall k :: k in ks ==> k in m
  {
    if ks == [] then 0 else SumBy(ks[..|ks| - 1], m, size) + size(m[ks[|ks| - 1]])
  }

  lemma {:induction false} SumByAppend<V>(ks: seq<string>, k: string, m: map<string, V>, size: V -> nat)
    requires forall k' :: k' in ks ==> k' in m
    requires k in m
    ensures SumBy(ks + [k], m, size) == SumBy(ks, m, size) + size(m[k])
  {
    assert (ks + [k])[..|ks|] == ks;
  }

  /** Values stored under keys outside `ks` do not matter. */
  lemma {:induction false} SumByFrame<V>(ks: seq<string>, m: map<string, V>, m': map<string, V>, size: V -> nat)
    requires forall k :: k in ks ==> k in m && k in m' && m[k] == m'[k]
    ensures SumBy(ks, m, size) == SumBy(ks, m', size)
  {
    if ks != [] {
      SumByFrame(ks[..|ks| - 1], m, m', size);
    }
  }

  /** Replacing the value of a key that occurs once changes the sum by the
      difference of the two sizes. */
  lemma {:induction false} SumByUpdate<V>(ks: seq<string>, m: map<string, V>, k: string, v: V, size: V -> nat)
    requires Distinct(ks) && k in ks
    requires forall k' :: k' in ks ==> k' in m
    ensures SumBy(ks, m[k := v], size) + size(m[k]) == SumBy(ks, m, size) + size(v)
  {
    var n := |ks|;
    var init := ks[..n - 1];
    if ks[n - 1] == k {
      assert k !in init;
      SumByFrame(init, m, m[k := v], size);
    } else {
      assert k in init by {
        var i :| 0 <= i < n && ks[i] == k;
        assert init[i] == k;
      }
      SumByUpdate(init, m, k, v, size);
    }
  }

  /** Removing the key at position j takes its size out of the sum. */
  lemma {:induction false} SumByRemove<V>(ks: seq<string>, j: nat, m: map<string, V>, size: V -> nat)
    requires j < |ks|
    requires forall k :: k in ks ==> k in m
    ensures SumBy(ks, m, size) == SumBy(ks[..j] + ks[j + 1..], m, size) + size(m[ks[j]])
  {
    var n := |ks|;
    if j < n - 1 {
      var init := ks[..n - 1];
      SumByRemove(init, j, m, size);
      assert init[..j] + init[j + 1..] + [ks[n - 1]] == ks[..j] + ks[j + 1..];
      SumByAppend(init[..j] + init[j + 1..], ks[n - 1], m, size);
    } else {
      assert ks[..j] + ks[j + 1..] == ks[..n - 1];
    }
  }

  /** Taking the last key off one list and the same key off a permutation
      of it leaves two permutations. */
  lemma PermutationRemove(ks: seq<string>, ks': seq<string>, j: nat)
    requires ks != [] && j < |ks'| && ks'[j] == ks[|ks| - 1]
    requires multiset(ks) == multiset(ks')
    ensures multiset(ks[..|ks| - 1]) == multiset(ks'[..j] + ks'[j + 1..])
  {
    var n := |ks|;
    var x := ks[n - 1];
    var init, a, b := ks[..n - 1], ks'[..j], ks'[j + 1..];
    assert ks == init + [x];
    assert ks' == a + [x] + b;
    assert multiset(ks) == multiset(init) + multiset{x};
    assert multiset(ks') == multiset(a) + multiset{x} + multiset(b);
    assert multiset(a + b) == multiset(a) + multiset(b);
    assert multiset(init) == multiset(ks) - multiset{x};
  }

  /** The sum does not depend on the order of the keys. */
  lemma {:induction false} SumByPermutation<V>(ks: seq<string>, ks': seq<string>, m: map<string, V>, size: V -> nat)
    requires multiset(ks) == multiset(ks')
    requires forall k :: k in ks ==> k in m
    ensures forall k :: k in ks' ==> k in m
    ensures SumBy(ks, m, size) == SumBy(ks', m, size)
  {
    forall k | k in ks' ensures k in m {
      assert k in multiset(ks');
    }
    if ks != [] {
      var n := |ks|;
      var x := ks[n - 1];
      assert x in multiset(ks');
      var j :| 0 <= j < |ks'| && ks'[j] == x;
      PermutationRemove(ks, ks', j);
      SumByRemove(ks', j, m, size);
      SumByPermutation(ks[..n - 1], ks'[..j] + ks'[j + 1..], m, size);
    }
  }

  /** The sum of `size` over every value, in key order. */
  function Total<V>(d: Dict<V>, size: V -> nat): nat
    requires Valid(d)
  {
    SumBy(d.keys, d.values, size)
  }

  /** Storing under a new key adds that value's size to the total. */
  lemma TotalPutNew<V>(d: Dict<V>, k: string, v: V, size: V -> nat)
    requires Valid(d) && k !in d.values
    ensures Total(Put(d, k, v), size) == Total(d, size) + size(v)
  {
    SumByFrame(d.keys, d.values, d.values[k := v], size);
    SumByAppend(d.keys, k, d.values[k := v], size);
  }

  /** Overwriting a key replaces its old size by the new one. */
  lemma TotalPutExisting<V>(d: Dict<V>, k: string, v: V, size: V -> nat)
    requires Valid(d) && k in d.values
    ensures Total(Put(d, k, v), size) + size(d.values[k]) == Total(d, size) + size(v)
  {
    SumByUpdate(d.keys, d.values, k, v, size);
  }

  lemma DistinctSnoc(ks: seq<string>, k: string)
    requires Distinct(ks + [k])
    ensures Distinct(ks) && k !in ks
  {
    var s := ks + [k];
    forall a, b | 0 <= a < b < |ks| ensures ks[a] != ks[b] {
      assert s[a] == ks[a] && s[b] == ks[b];
    }
    forall a | 0 <= a < |ks| ensures ks[a] != k {
      assert s[a] == ks[a] && s[|ks|] == k;
    }
  }

  /** A key occurs at most once in a list of distinct keys. */
  lemma {:induction false} DistinctAtMostOnce(ks: seq<string>, x: string)
    requires Distinct(ks)
    ensures multiset(ks)[x] <= 1
  {
    if ks != [] {
      var init, last := ks[..|ks| - 1], ks[|ks| - 1];
      assert ks == init + [last];
      DistinctSnoc(init, last);
      DistinctAtMostOnce(init, x);
      if x == last {
        assert x !in multiset(init);
      }
    }
  }

  /** A permutation of distinct keys has distinct keys. */
  lemma DistinctPermutation(a: seq<string>, b: seq<string>)
    requires Distinct(a) && multiset(a) == multiset(b)
    ensures Distinct(b)
  {
    forall i, j | 0 <= i < j < |b| ensures b[i] != b[j] {
      if b[i] == b[j] {
        var x := b[i];
        assert b == b[..j] + b[j..];
        assert b[..j][i] == x && b[j..][0] == x;
        assert x in multiset(b[..j]) && x in multiset(b[j..]);
        DistinctAtMostOnce(a, x);
        assert false;
      }
    }
  }

  /** A second store under the same key wins, and the key keeps the place
      the first store gave it. */
  lemma PutPut<V>(d: Dict<V>, k: string, v: V, w: V)
    requires Valid(d)
    ensures Put(Put(d, k, v), k, w) == Put(d, k, w)
  {
    assert d.values[k := v][k := w] == d.values[k := w];
  }
}

=== FILE: display.dfy ===
/** Which renames of a category `display_plan` lists: the first five, and
    for a long category an elision line and the last two. */
module PlanDisplay {

  /** The positions (from 0) of the renames listed, and the count printed on
      the elision line, 0 when there is no such line. */
  datatype Shown = Shown(rows: seq<nat>, elided: nat)

  /** a, a + 1, ..., b - 1. */
  function Range(a: nat, b: nat): (r: seq<nat>)
    requires a <= b
    ensures |r| == b - a && forall k :: 0 <= k < |r| ==> r[k] == a + k
  {
    seq(b - a, k requires 0 <= k < b - a => a + k)
  }

  function Min(a: nat, b: nat): nat
  {
    if a < b then a else b
  }

  /** The rows as rename-images.py chooses them: `min(5, n)` from the front;
      when n > 7, an elision line for n - 7 renames and the last two. */
  function ShownRows(n: nat): Shown
  {
    Shown(Range(0, Min(5, n)) + (if n > 7 then Range(n - 2, n) else []), if n > 7 then n - 7 else 0)
  }

  /** The rows listed are positions of the category, in increasing order. */
  predicate Increasing(rows: seq<nat>, n: nat)
  {
    (forall k :: 0 <= k < |rows| ==> rows[k] < n) &&
    (forall k, l :: 0 <= k < l < |rows| ==> rows[k] < rows[l])
  }

  /** Every rename is either listed or counted on the elision line, which
      stands for the ones between the first five and the last two. */
  predicate Accounts(s: Shown, n: nat)
  {
    Increasing(s.rows, n) && |s.rows| + s.elided == n &&
    forall i :: 0 <= i < n ==> i in s.rows || (s.elided > 0 && 5 <= i < n - 2)
  }

  lemma LongAccounts(n: nat, s: Shown)
    requires n > 7 && s == Shown(Range(0, 5) + Range(n - 2, n), n - 7)
    ensures Accounts(s, n)
  {
    var rows := s.rows;
    assert forall k :: 0 <= k < 5 ==> rows[k] == k;
    assert rows[5] == n - 2 && rows[6] == n - 1;
    forall i | 0 <= i < n && !(5 <= i < n - 2) ensures i in rows {
      if i < 5 { assert rows[i] == i; } else if i == n - 2 { assert rows[5] == i; } else { assert rows[6] == i; }
    }
  }

  lemma FullAccounts(n: nat)
    ensures Accounts(Shown(Range(0, n), 0), n)
  {
    forall i | 0 <= i < n ensures i in Range(0, n) {
      assert Range(0, n)[i] == i;
    }
  }

  /** As written, the listing accounts for every rename except for a
      category of six or seven. */
  lemma ShownRowsAccounts(n: nat)
    requires n != 6 && n != 7
    ensures Accounts(ShownRows(n), n)
  {
    if n > 7 {
      LongAccounts(n, ShownRows(n));
    } else {
      assert ShownRows(n).rows == Range(0, n);
      FullAccounts(n);
    }
  }

  /** A category of six renames: the sixth is neither listed nor counted,
      and there is no elision line. */
  lemma ShownRowsHidesSixth()
    ensures ShownRows(6) == Shown([0, 1, 2, 3, 4], 0)
    ensures 5 !in ShownRows(6).rows && !Accounts(ShownRows(6), 6)
  {
    assert Range(0, 5) == [0, 1, 2, 3, 4];
  }

  /** As written, the listing accounts for every rename exactly when the
      category does not hold six or seven. */
  lemma ShownRowsAccountsExactly(n: nat)
    ensures Accounts(ShownRows(n), n) <==> n != 6 && n != 7
  {
    if n == 6 || n == 7 {
      assert |ShownRows(n).rows| + ShownRows(n).elided == 5;
    } else {
      ShownRowsAccounts(n);
    }
  }

  /** The corrected choice: a category of at most seven renames is listed
      in full. */
  function DisplayRows(n: nat): Shown
  {
    if n <= 7 then Shown(Range(0, n), 0) else ShownRows(n)
  }

  lemma DisplayRowsAccounts(n: nat)
    ensures Accounts(DisplayRows(n), n)
    ensures n != 6 && n != 7 ==> DisplayRows(n) == ShownRows(n)
  {
    if n > 7 {
      LongAccounts(n, ShownRows(n));
    } else {
      FullAccounts(n);
      if n <= 5 {
        assert ShownRows(n).rows == Range(0, n);
      }
    }
  }
}

=== FILE: file_names.dfy ===
/** The new name the renamer gives an image: `--bg-<category>-<number><ext>`,
    with the category reduced to lower-case letters, digits and single dashes
    and the number zero-padded to a width chosen from the category's size. */
module FileNames {
  import opened Text
  import opened Listing

  const Prefix: string := "--bg-"

  // ---------------------------------------------------------------------
  // The category part.

  predicate IsSlugChar(c: char)
  {
    'a' <= c <= 'z' || '0' <= c <= '9'
  }

  predicate SlugOrDash(s: string)
  {
    forall i :: 0 <= i < |s| ==> IsSlugChar(s[i]) || s[i] == '-'
  }

  predicate NoDoubleDash(s: string)
  {
    forall i :: 0 <= i < |s| - 1 ==> !(s[i] == '-' && s[i + 1] == '-')
  }

  /** The shape of a cleaned category: letters, digits and single dashes,
      with no dash at either end. */
  predicate IsClean(s: string)
  {
    SlugOrDash(s) && NoDoubleDash(s) && (s != [] ==> s[0] != '-' && s[|s| - 1] != '-')
  }

  /** `re.sub(r'[^a-z0-9]+', '-', s)`: every maximal run of other characters
      becomes one dash. `inRun` says a dash has just been written for a run
      that is still going on. */
  function Collapse(s: string, inRun: bool): (r: string)
    ensures SlugOrDash(r) && NoDoubleDash(r)
    ensures inRun && r != [] ==> r[0] != '-'
  {
    if s == [] then []
    else if IsSlugChar(s[0]) then [s[0]] + Collapse(s[1..], false)
    else if inRun then Collapse(s[1..], true)
    else ['-'] + Collapse(s[1..], true)
  }

  function DropLeadingDashes(s: string): (r: string)
    ensures |r| <= |s| && r == s[|s| - |r|..]
    ensures r != [] ==> r[0] != '-'
  {
    if s != [] && s[0] == '-' then DropLeadingDashes(s[1..]) else s
  }

  function DropTrailingDashes(s: string): (r: string)
    ensures |r| <= |s| && r == s[..|r|]
    ensures r != [] ==> r[|r| - 1] != '-'
  {
    if s != [] && s[|s| - 1] == '-' then DropTrailingDashes(s[..|s| - 1]) else s
  }

  /** `.strip('-')`, or the JavaScript `replace(/^-+|-+$/g, '')`. */
  function TrimDashes(s: string): string
  {
    DropTrailingDashes(DropLeadingDashes(s))
  }

  /** The cleaned category of `generate_new_filename` / `generateNewFilename`. */
  function Sanitize(category: string): string
  {
    TrimDashes(Collapse(Lower(category), false))
  }

  lemma SliceKeepsShape(s: string, a: nat, b: nat)
    requires a <= b <= |s| && SlugOrDash(s) && NoDoubleDash(s)
    ensures SlugOrDash(s[a..b]) && NoDoubleDash(s[a..b])
  {
    var t := s[a..b];
    forall i | 0 <= i < |t| - 1 ensures !(t[i] == '-' && t[i + 1] == '-') {
      assert t[i] == s[a + i] && t[i + 1] == s[a + i + 1];
    }
  }

  /** The cleaned category holds only `[a-z0-9-]`, never two dashes in a row
      and no dash at either end. */
  lemma SanitizeIsClean(category: string)
    ensures IsClean(Sanitize(category))
  {
    var c := Collapse(Lower(category), false);
    var l := DropLeadingDashes(c);
    SliceKeepsShape(c, |c| - |l|, |c|);
    SliceKeepsShape(l, 0, |DropTrailingDashes(l)|);
  }

  /** Collapsing changes nothing in a string that already has the shape. */
  lemma {:induction false} CollapseClean(s: string, inRun: bool)
    requires SlugOrDash(s) && NoDoubleDash(s)
    requires inRun && s != [] ==> s[0] != '-'
    ensures Collapse(s, inRun) == s
  {
    if s != [] {
      var t := s[1..];
      SliceKeepsShape(s, 1, |s|);
      if IsSlugChar(s[0]) {
        CollapseClean(t, false);
      } else {
        assert t != [] ==> t[0] == s[1];
        CollapseClean(t, true);
      }
      assert s == [s[0]] + t;
    }
  }

  lemma LowerClean(s: string)
    requires SlugOrDash(s)
    ensures Lower(s) == s
  {
    assert forall i :: 0 <= i < |s| ==> Lower(s)[i] == s[i];
  }

  /** Cleaning is idempotent: a cleaned category is left as it is. */
  lemma SanitizeIdempotent(category: string)
    ensures Sanitize(Sanitize(category)) == Sanitize(category)
  {
    var s := Sanitize(category);
    SanitizeIsClean(category);
    LowerClean(s);
    CollapseClean(s, false);
  }

  // ---------------------------------------------------------------------
  // The number part.

  /** Padding width: 2 below a total of 100, 3 below 1000, else 4. */
  function PadWidth(total: int): nat
  {
    if total < 100 then 2 else if total < 1000 then 3 else 4
  }

  predicate IsDigit(c: char)
  {
    '0' <= c <= '9'
  }

  predicate AllDigits(s: string)
  {
    forall i :: 0 <= i < |s| ==> IsDigit(s[i])
  }

  function DigitChar(d: nat): (c: char)
    requires d < 10
    ensures IsDigit(c) && c as int - '0' as int == d
  {
    (d + '0' as int) as char
  }

  /** `str(n)` for a natural number: no leading zeros. */
  function Digits(n: nat): (r: string)
    ensures 1 <= |r| && AllDigits(r)
    ensures n == 0 || r[0] != '0'
    ensures |r| == 1 <==> n < 10
  {
    if n < 10 then [DigitChar(n)] else Digits(n / 10) + [DigitChar(n % 10)]
  }

  function Zeros(k: nat): (r: string)
    ensures |r| == k && forall i :: 0 <= i < k ==> r[i] == '0'
  {
    if k == 0 then [] else Zeros(k - 1) + ['0']
  }

  /** `s.zfill(w)` / `s.padStart(w, '0')` for an unsigned number: zeros in
      front up to width w, nothing cut off. */
  function ZFill(s: string, w: nat): string
  {
    if |s| >= w then s else Zeros(w - |s|) + s
  }

  /** The number part of a new name. */
  function FormatIndex(index: nat, total: int): string
  {
    ZFill(Digits(index), PadWidth(total))
  }

  /** Reading a string of digits as a decimal number. */
  function ParseDecimal(s: string): nat
    requires AllDigits(s)
  {
    if s == [] then 0 else 10 * ParseDecimal(s[..|s| - 1]) + (s[|s| - 1] as int - '0' as int)
  }

  lemma {:induction false} ParseDigits(n: nat)
    ensures ParseDecimal(Digits(n)) == n
  {
    if n >= 10 {
      var s := Digits(n);
      assert s[..|s| - 1] == Digits(n / 10);
      ParseDigits(n / 10);
    }
  }

  lemma {:induction false} ParseZerosPrefix(k: nat, s: string)
    requires AllDigits(s)
    ensures AllDigits(Zeros(k) + s) && ParseDecimal(Zeros(k) + s) == ParseDecimal(s)
  {
    var t := Zeros(k) + s;
    assert AllDigits(t) by {
      forall i | 0 <= i < |t| ensures IsDigit(t[i]) {
        if i >= k { assert t[i] == s[i - k]; }
      }
    }
    if s == [] {
      ParseZeros(k);
      assert t == Zeros(k);
    } else {
      var n := |s|;
      assert t[..|t| - 1] == Zeros(k) + s[..n - 1];
      ParseZerosPrefix(k, s[..n - 1]);
    }
  }

  lemma {:induction false} ParseZeros(k: nat)
    ensures AllDigits(Zeros(k)) && ParseDecimal(Zeros(k)) == 0
  {
    if k > 0 {
      assert Zeros(k)[..k - 1] == Zeros(k - 1);
      ParseZeros(k - 1);
    }
  }

  /** The number is never cut: its length is the larger of the width and the
      number of digits, it is all digits, and reading it gives the index back. */
  lemma FormatIndexSpec(index: nat, total: int)
    ensures |FormatIndex(index, total)| == if |Digits(index)| >= PadWidth(total) then |Digits(index)| else PadWidth(total)
    ensures AllDigits(FormatIndex(index, total))
    ensures ParseDecimal(FormatIndex(index, total)) == index
  {
    var d := Digits(index);
    ParseDigits(index);
    if |d| < PadWidth(total) {
      ParseZerosPrefix(PadWidth(total) - |d|, d);
    }
  }

  function Pow10(w: nat): nat
  {
    if w == 0 then 1 else 10 * Pow10(w - 1)
  }

  /** The last w decimal digits of n. */
  function Fixed(n: nat, w: nat): (r: string)
    ensures |r| == w
  {
    if w == 0 then [] else Fixed(n / 10, w - 1) + [DigitChar(n % 10)]
  }

  lemma {:induction false} FixedOfZero(w: nat)
    ensures Fixed(0, w) == Zeros(w)
  {
    if w > 0 {
      FixedOfZero(w - 1);
    }
  }

  /** A number below 10^w zero-filled to width w (at least 1) is its last w
      digits. */
  lemma {:induction false} ZFillIsFixed(n: nat, w: nat)
    requires 1 <= w && n < Pow10(w)
    ensures ZFill(Digits(n), w) == Fixed(n, w)
  {
    if n < 10 {
      FixedOfZero(w - 1);
      assert n / 10 == 0;
    } else {
      assert 1 <= n / 10 < Pow10(w - 1);
      ZFillIsFixed(n / 10, w - 1);
      var d := Digits(n / 10);
      if |d| < w - 1 {
        assert ZFill(Digits(n), w) == Zeros(w - 1 - |d|) + d + [DigitChar(n % 10)];
      }
    }
  }

  lemma {:induction false} FixedOrder(i: nat, j: nat, w: nat)
    requires i < j < Pow10(w)
    ensures LexLess(Fixed(i, w), Fixed(j, w))
  {
    var a, b := Fixed(i / 10, w - 1), Fixed(j / 10, w - 1);
    if i / 10 < j / 10 {
      FixedOrder(i / 10, j / 10, w - 1);
      LexLessAppend(a, b, [DigitChar(i % 10)], [DigitChar(j % 10)]);
    } else {
      LexLessLast(a, DigitChar(i % 10), DigitChar(j % 10));
    }
  }

  /** Below a total of 10000 the numbers of one category all have the same
      length and sort in numeric order. */
  lemma FormatIndexOrder(i: nat, j: nat, total: nat)
    requires 1 <= i < j <= total < 10000
    ensures |FormatIndex(i, total)| == |FormatIndex(j, total)| == PadWidth(total)
    ensures LexLess(FormatIndex(i, total), FormatIndex(j, total))
  {
    var w := PadWidth(total);
    assert Pow10(2) == 100 && Pow10(3) == 1000 && Pow10(4) == 10000;
    ZFillIsFixed(i, w);
    ZFillIsFixed(j, w);
    FixedOrder(i, j, w);
  }

  /** From a total of 10000 on the order breaks: number 10000 sorts before 9999. */
  lemma FormatIndexOrderBreaks(total: nat)
    requires total >= 10000
    ensures LexLess(FormatIndex(10000, total), FormatIndex(9999, total))
  {
    assert Digits(10000) == "10000" by {
      assert Digits(1) == "1" && DigitChar(0) == '0';
    }
    assert Digits(9999) == "9999" by {
      assert Digits(9) == "9" && DigitChar(9) == '9';
    }
  }

  // ---------------------------------------------------------------------
  // The whole name.

  /** `generate_new_filename` / `generateNewFilename`; `extension` is the
      original suffix, in its original case. */
  function NewFilename(category: string, index: nat, total: int, extension: string): string
  {
    Prefix + Sanitize(category) + "-" + FormatIndex(index, total) + extension
  }

  lemma ConcatAt(s: string, t: string, k: int)
    ensures 0 <= k < |s| + |t| ==> (s + t)[k] == if k < |s| then s[k] else t[k - |s|]
  {
  }

  lemma DigitsThenDot(a: string, b: string, x: string, y: string)
    requires AllDigits(a) && AllDigits(b)
    requires x != [] && x[0] == '.' && y != [] && y[0] == '.'
    requires a + x == b + y
    ensures a == b
  {
    if |a| != |b| {
      var k := if |a| < |b| then |a| else |b|;
      ConcatAt(a, x, k);
      ConcatAt(b, y, k);
      assert false;
    }
    assert a == (a + x)[..|a|] && b == (b + y)[..|b|];
  }

  lemma HeadDigitsThenDot(h: string, a: string, b: string, x: string, y: string)
    requires AllDigits(a) && AllDigits(b)
    requires x != [] && x[0] == '.' && y != [] && y[0] == '.'
    ensures h + a + x == h + b + y ==> a == b
  {
    if h + a + x == h + b + y {
      assert a + x == (h + a + x)[|h|..] && b + y == (h + b + y)[|h|..];
      DigitsThenDot(a, b, x, y);
    }
  }

  lemma HeadOrder(h: string, a: string, b: string, x: string, y: string)
    requires |a| == |b| && LexLess(a, b)
    ensures LexLess(h + a + x, h + b + y)
  {
    LexLessAppend(a, b, x, y);
    LexLessPrefix(h, a + x, b + y);
    assert h + a + x == h + (a + x) && h + b + y == h + (b + y);
  }

  /** Two images of one category get different names whenever their indices
      differ, since an extension starts with a dot and the number does not. */
  lemma NewFilenameInjective(category: string, i: nat, j: nat, total: int, x: string, y: string)
    requires x != [] && x[0] == '.' && y != [] && y[0] == '.'
    ensures NewFilename(category, i, total, x) == NewFilename(category, j, total, y) ==> i == j
  {
    FormatIndexSpec(i, total);
    FormatIndexSpec(j, total);
    HeadDigitsThenDot(Prefix + Sanitize(category) + "-", FormatIndex(i, total), FormatIndex(j, total), x, y);
  }

  /** Below a total of 10000 the names of one category sort by their numbers,
      whatever their extensions. */
  lemma NewFilenameOrder(category: string, i: nat, j: nat, total: nat, x: string, y: string)
    requires 1 <= i < j <= total < 10000
    ensures LexLess(NewFilename(category, i, total, x), NewFilename(category, j, total, y))
  {
    FormatIndexOrder(i, j, total);
    HeadOrder(Prefix + Sanitize(category) + "-", FormatIndex(i, total), FormatIndex(j, total), x, y);
  }

  /** A suffix glued after a non-empty head is still the suffix. */
  lemma SuffixAfter(h: string, e: string)
    requires h != [] && 2 <= |e| && e[0] == '.' && '.' !in e[1..]
    ensures Suffix(h + e) == e
  {
    var s := h + e;
    forall m | |h| < m < |s| ensures s[m] != '.' {
      assert s[m] == e[m - |h|] == e[1..][m - |h| - 1];
    }
    assert s[|h|] == '.';
    assert LastDot(s) == |h|;
    assert s[|h|..] == e;
  }

  /** A renamed image keeps its suffix, so it is still an image. */
  lemma NewFilenameKeepsSuffix(category: string, index: nat, total: int, name: string)
    requires IsImageName(name)
    ensures Suffix(NewFilename(category, index, total, Suffix(name))) == Suffix(name)
    ensures IsImageName(NewFilename(category, index, total, Suffix(name)))
  {
    var e := Suffix(name);
    ImageSuffixShape(name);
    var h := Prefix + Sanitize(category) + "-" + FormatIndex(index, total);
    assert h + e == NewFilename(category, index, total, e);
    SuffixAfter(h, e);
  }
}

=== FILE: generator.dfy ===
/** The top level of generate-image-data: scan, report the total, and update
    index.html — after asking, in the Python script; always, in the
    JavaScript one. */
module Generator {
  import opened Text
  import opened Listing
  import opened ImageData
  import opened HtmlSplice

  /** The Python prompt accepts `y` or `yes`, in any case, with surrounding
      whitespace. */
  predicate AcceptsUpdate(answer: string)
  {
    NormalizeAnswer(answer) in {"y", "yes"}
  }

  /** Surrounding whitespace never changes the decision. */
  lemma AcceptsUpdatePadding(c: char, answer: string)
    requires IsSpace(c)
    ensures AcceptsUpdate([c] + answer) == AcceptsUpdate(answer)
    ensures AcceptsUpdate(answer + [c]) == AcceptsUpdate(answer)
  {
    TrimCons(c, answer);
    TrimSnoc(answer, c);
  }

  /** The decision ignores upper and lower case. */
  lemma AcceptsUpdateIgnoresCase(answer: string)
    ensures AcceptsUpdate(Lower(answer)) == AcceptsUpdate(answer)
  {
    NormalizeIgnoresCase(answer);
  }

  /** Exactly the answers that strip to one or three characters reading
      `y` or `yes` in either case are accepted; anything else is declined. */
  lemma AcceptsExactly(answer: string)
    ensures AcceptsUpdate(answer) <==>
      var t := Trim(answer);
      (|t| == 1 && LowerChar(t[0]) == 'y') ||
      (|t| == 3 && LowerChar(t[0]) == 'y' && LowerChar(t[1]) == 'e' && LowerChar(t[2]) == 's')
  {
    var t := Trim(answer);
    var l := Lower(t);
    if |t| == 1 {
      assert l == [l[0]];
    } else if |t| == 3 {
      assert l == [l[0], l[1], l[2]];
    }
  }

  datatype Outcome =
    | Exited            // the Images folder could not be listed: exit status 1
    | Previewed         // the answer declined the update; the map was only shown
    | Attempted(success: bool)

  /** `main` of generate-image-data.py. The listing of the Images folder, the
      typed answer, index.html and whether writing it succeeds are inputs;
      `serialize` stands for `json.dumps`. Returns what happened, the page
      afterwards and the total the statistics show. */
  method MainPython(root: Option<seq<Entry>>, answer: string, page: Option<string>,
                    serialize: ImageMap -> string, writeOk: bool)
    returns (outcome: Outcome, page': Option<string>, total: nat)
    ensures root.None? ==> outcome == Exited && page' == page
    ensures root.Some? && !AcceptsUpdate(answer) ==> outcome == Previewed && page' == page
    ensures root.Some? && AcceptsUpdate(answer) ==>
      var u := UpdateIndexHtml(page, serialize(Scan(root.value)), true, writeOk);
      outcome == Attempted(u.success) && page' == u.page
    ensures root.Some? ==> total == CountTotalImages(Scan(root.value))
  {
    var data := GenerateImageData(root);
    if data.None? {
      return Exited, page, 0;
    }
    total := DisplayStats(data.value);
    if AcceptsUpdate(answer) {
      var u := UpdateIndexHtml(page, serialize(data.value), true, writeOk);
      outcome, page' := Attempted(u.success), u.page;
    } else {
      outcome, page' := Previewed, page;
    }
  }

  /** `main` of generate-image-data.js: no prompt, first block only. */
  method MainNode(root: Option<seq<Entry>>, page: Option<string>, serialize: ImageMap -> string, writeOk: bool)
    returns (outcome: Outcome, page': Option<string>, total: nat)
    ensures root.None? ==> outcome == Exited && page' == page
    ensures root.Some? ==>
      var u := UpdateIndexHtml(page, serialize(Scan(root.value)), false, writeOk);
      outcome == Attempted(u.success) && page' == u.page && total == CountTotalImages(Scan(root.value))
  {
    var data := GenerateImageData(root);
    if data.None? {
      return Exited, page, 0;
    }
    total := DisplayStats(data.value);
    var u := UpdateIndexHtml(page, serialize(data.value), false, writeOk);
    outcome, page' := Attempted(u.success), u.page;
  }
}

=== FILE: html_splice.dfy ===
/** The text surgery both generators perform on index.html: find the
    `const imageData = {` ... `\n        };` block (the regular expression
    `const imageData = \{[\s\S]*?\n        \};`) and replace it with a fresh
    assignment. Python's `re.sub` replaces every such block, JavaScript's
    non-global `replace` only the first. */
module HtmlSplice {
  import opened Listing

  const Open: string := "const imageData = {"

  /** A line feed, eight spaces and `};`. */
  const Close: string := "\n        };"

  predicate OccursAt(text: string, pat: string, i: int)
  {
    0 <= i && i + |pat| <= |text| && text[i..i + |pat|] == pat
  }

  /** The first occurrence of `pat` in `text` at or after `from`. */
  function IndexOf(text: string, pat: string, from: nat): (r: Option<nat>)
    ensures r.Some? ==> from <= r.value && OccursAt(text, pat, r.value)
    ensures r.Some? ==> forall k :: from <= k < r.value ==> !OccursAt(text, pat, k)
    ensures r.None? ==> forall k :: from <= k ==> !OccursAt(text, pat, k)
    decreases |text| - from
  {
    if from + |pat| > |text| then None
    else if text[from..from + |pat|] == pat then Some(from)
    else IndexOf(text, pat, from + 1)
  }

  /** A match of the pattern from i up to e (exclusive): the opening text at
      i and the closing text ending at e, after the opening text. */
  predicate IsBlock(text: string, i: int, e: int)
  {
    OccursAt(text, Open, i) && i + |Open| <= e - |Close| && OccursAt(text, Close, e - |Close|)
  }

  /** The match a regular-expression search reports: the leftmost start,
      and for it the shortest block, since `*?` is lazy. */
  ghost predicate FirstBlock(text: string, i: int, e: int)
  {
    IsBlock(text, i, e) && forall i', e' :: IsBlock(text, i', e') ==> i < i' || (i == i' && e <= e')
  }

  /** The first opening text, then the first closing text after it. */
  function FindBlock(text: string): (r: Option<(nat, nat)>)
    ensures r.Some? ==> IsBlock(text, r.value.0, r.value.1)
  {
    match IndexOf(text, Open, 0)
    case None => None
    case Some(i) =>
      match IndexOf(text, Close, i + |Open|)
      case None => None
      case Some(j) => Some((i, j + |Close|))
  }

  /** `FindBlock` finds exactly what the regular expression matches: nothing
      when there is no block, else the leftmost, shortest one. */
  lemma FindBlockSpec(text: string)
    ensures FindBlock(text).None? <==> forall i, e :: !IsBlock(text, i, e)
    ensures FindBlock(text).Some? ==> FirstBlock(text, FindBlock(text).value.0, FindBlock(text).value.1)
  {
    var oi := IndexOf(text, Open, 0);
    if oi.Some? {
      var i := oi.value;
      var oj := IndexOf(text, Close, i + |Open|);
      forall i', e' | IsBlock(text, i', e')
        ensures oj.Some? && (i < i' || (i == i' && oj.value + |Close| <= e'))
      {
        assert i <= i';
        assert OccursAt(text, Close, e' - |Close|) && i + |Open| <= e' - |Close|;
      }
    }
  }

  /** JavaScript's `htmlContent.replace(regex, replacement)` with a
      non-global regular expression. */
  function SpliceFirst(text: string, repl: string): string
  {
    match FindBlock(text)
    case None => text
    case Some((i, e)) => text[..i] + repl + text[e..]
  }

  /** Python's `re.sub(pattern, replacement, html)`: every block, left to
      right, the search resuming after each replaced block. */
  function SpliceAll(text: string, repl: string): string
    decreases |text|
  {
    match FindBlock(text)
    case None => text
    case Some((i, e)) => text[..i] + repl + SpliceAll(text[e..], repl)
  }

  /** Without a block both splices leave the text unchanged; with one, the
      first block is replaced and the text before it kept, and the single
      replacement keeps the text after it too. */
  lemma SpliceSpec(text: string, repl: string)
    ensures (forall i, e :: !IsBlock(text, i, e)) ==> SpliceFirst(text, repl) == text && SpliceAll(text, repl) == text
    ensures forall i, e :: FirstBlock(text, i, e) ==>
      && 0 <= i <= e <= |text|
      && SpliceFirst(text, repl) == text[..i] + repl + text[e..]
      && SpliceAll(text, repl) == text[..i] + repl + SpliceAll(text[e..], repl)
  {
    FindBlockSpec(text);
    forall i, e | FirstBlock(text, i, e)
      ensures 0 <= i <= e <= |text|
      ensures SpliceFirst(text, repl) == text[..i] + repl + text[e..]
      ensures SpliceAll(text, repl) == text[..i] + repl + SpliceAll(text[e..], repl)
    {
      var b := FindBlock(text).value;
      assert i == b.0 && e == b.1;
    }
  }

  /** With a single opening text, none follows a block that starts at it. */
  lemma NoOpenAfter(text: string, i: nat, e: nat)
    requires forall k, l :: OccursAt(text, Open, k) && OccursAt(text, Open, l) ==> k == l
    requires OccursAt(text, Open, i) && i < e <= |text|
    ensures forall i', e' :: !IsBlock(text[e..], i', e')
  {
    var rest := text[e..];
    forall k | OccursAt(rest, Open, k) ensures false {
      assert rest[k..k + |Open|] == text[e + k..e + k + |Open|];
      assert OccursAt(text, Open, e + k);
    }
  }

  /** When the opening text occurs only once, `re.sub` and the non-global
      JavaScript replacement give the same page. */
  lemma SingleMarkerSplicesAgree(text: string, repl: string)
    requires forall k, l :: OccursAt(text, Open, k) && OccursAt(text, Open, l) ==> k == l
    ensures SpliceAll(text, repl) == SpliceFirst(text, repl)
  {
    match FindBlock(text)
    case None =>
    case Some((i, e)) =>
      NoOpenAfter(text, i, e);
      SpliceSpec(text[e..], repl);
  }

  /** The assignment written in place of the block. */
  function Replacement(serialized: string): string
  {
    "const imageData = " + serialized + ";"
  }

  /** The result of an attempt to update index.html: whether it succeeded,
      and the content of the file afterwards (None when it cannot be read). */
  datatype Update = Update(success: bool, page: Option<string>)

  /** `update_index_html` / `updateIndexHTML`. `page` is index.html as read
      (None when reading fails), `serialized` the JSON text of the map,
      `everyBlock` chooses Python's replacement of every block over
      JavaScript's replacement of the first, and `writeOk` says whether
      writing the file back succeeds. */
  function UpdateIndexHtml(page: Option<string>, serialized: string, everyBlock: bool, writeOk: bool): (r: Update)
    ensures r.success <==> page.Some? && (exists i, e :: IsBlock(page.value, i, e)) && writeOk
    ensures !r.success ==> r.page == page
    ensures r.success ==> r.page == Some(if everyBlock then SpliceAll(page.value, Replacement(serialized))
                                         else SpliceFirst(page.value, Replacement(serialized)))
  {
    match page
    case None => Update(false, None)
    case Some(html) =>
      FindBlockSpec(html);
      if FindBlock(html).None? then Update(false, page)
      else
        var updated := if everyBlock then SpliceAll(html, Replacement(serialized))
                       else SpliceFirst(html, Replacement(serialized));
        if writeOk then Update(true, Some(updated)) else Update(false, page)
  }
}

=== FILE: image_data.dfy ===
/** The category scanner of generate-image-data (Python and JavaScript): one
    level of the Images folder grouped into a map from category to the image
    names it holds, loose images going to the `other` category. */
module ImageData {
  import opened Text
  import opened Listing
  import opened Dicts

  /** Category name to image names, in the order categories were first stored. */
  type ImageMap = Dict<seq<string>>

  const Other: string := "other"

  /** The names of a folder's entries that `keep` accepts, or nothing when
      the folder cannot be listed (the error is only reported). */
  function Collect(listing: Option<seq<Entry>>, keep: Entry -> bool): seq<string>
  {
    match listing
    case None => []
    case Some(es) => Select(es, keep)
  }

  /** What `get_images_from_dir` returns for a folder: its images in listing
      order, or nothing when the folder cannot be listed. */
  function FolderImages(listing: Option<seq<Entry>>): seq<string>
  {
    Collect(listing, IsImageFile)
  }

  /** `get_images_from_dir` / `getImagesFromDir`: skip directories, keep the
      names whose lower-cased suffix is supported, in listing order. */
  method GetImagesFromDir(listing: Option<seq<Entry>>) returns (images: seq<string>)
    ensures images == FolderImages(listing)
  {
    images := [];
    if listing.Some? {
      var es := listing.value;
      var i := 0;
      while i < |es|
        invariant 0 <= i <= |es|
        invariant images == ImageNames(es[..i])
      {
        SelectSnoc(es, i, IsImageFile);
        var item := es[i];
        if !item.Folder? {
          if IsImageName(item.name) {
            images := images + [item.name];
          }
        }
        i := i + 1;
      }
      assert es[..|es|] == es;
    }
  }

  /** One pass of the scanning loop: a folder with images becomes (or
      overwrites) its category; a loose image is appended to `other`, which is
      created when missing; anything else is ignored. `keep` is the image
      test, `IsImageFile` in both scripts; the proofs below hold for any test. */
  function ScanStep(d: ImageMap, e: Entry, keep: Entry -> bool): (r: ImageMap)
    requires Valid(d)
    ensures Valid(r)
  {
    match e
    case Folder(name, listing) =>
      var images := Collect(listing, keep);
      if images != [] then Put(d, name, images) else d
    case File(name) =>
      if keep(e) then
        var bucket := if Other in d.values then d.values[Other] else [];
        Put(d, Other, bucket + [name])
      else d
  }

  function ScanBy(es: seq<Entry>, keep: Entry -> bool): (r: ImageMap)
    ensures Valid(r)
  {
    if es == [] then Empty() else ScanStep(ScanBy(es[..|es| - 1], keep), es[|es| - 1], keep)
  }

  lemma ScanByStep(es: seq<Entry>, i: nat, keep: Entry -> bool)
    requires i < |es|
    ensures ScanBy(es[..i + 1], keep) == ScanStep(ScanBy(es[..i], keep), es[i], keep)
  {
    assert es[..i + 1][..i] == es[..i];
  }

  /** The map `generate_image_data` builds from the listing of the Images folder. */
  function Scan(es: seq<Entry>): ImageMap
  {
    ScanBy(es, IsImageFile)
  }

  /** The body of the scanning loop for one entry of the Images folder. */
  method AddEntry(d: ImageMap, item: Entry) returns (d': ImageMap)
    requires Valid(d)
    ensures d' == ScanStep(d, item, IsImageFile)
  {
    d' := d;
    if item.Folder? {
      var images := GetImagesFromDir(item.listing);
      assert ScanStep(d, item, IsImageFile) == if images != [] then Put(d, item.name, images) else d;
      if images != [] {
        d' := Put(d', item.name, images);
      }
    } else if IsImageName(item.name) {
      ghost var bucket := if Other in d.values then d.values[Other] else [];
      assert ScanStep(d, item, IsImageFile) == Put(d, Other, bucket + [item.name]);
      if Other !in d'.values {
        d' := Put(d', Other, []);
        PutPut(d, Other, [], [item.name]);
      }
      assert d'.values[Other] == bucket;
      d' := Put(d', Other, d'.values[Other] + [item.name]);
    } else {
      assert !IsImageFile(item);
    }
  }

  /** `generate_image_data` / `generateImageData`. An unreadable Images folder
      ends the program with status 1, modelled as None. */
  method GenerateImageData(root: Option<seq<Entry>>) returns (data: Option<ImageMap>)
    ensures root.None? <==> data.None?
    ensures root.Some? ==> data.value == Scan(root.value)
  {
    if root.None? {
      return None;
    }
    var es := root.value;
    var d: ImageMap := Empty();
    var i := 0;
    while i < |es|
      invariant 0 <= i <= |es|
      invariant d == Scan(es[..i])
    {
      ScanByStep(es, i, IsImageFile);
      d := AddEntry(d, es[i]);
      i := i + 1;
    }
    assert es[..|es|] == es;
    return Some(d);
  }

  function Len(images: seq<string>): nat
  {
    |images|
  }

  /** `count_total_images`: the number of names summed over the categories. */
  function CountTotalImages(d: ImageMap): nat
    requires Valid(d)
  {
    Total(d, Len)
  }

  /** The keys in sorted order, as both scripts walk them for display: each
      key exactly once, and nothing else. */
  lemma SortedKeys<V>(d: Dict<V>)
    requires Valid(d)
    ensures |SortBy(d.keys, Identity)| == |d.keys|
    ensures Distinct(SortBy(d.keys, Identity))
    ensures forall k :: k in SortBy(d.keys, Identity) <==> k in d.values
  {
    var ks := SortBy(d.keys, Identity);
    SortByPermutes(d.keys, Identity);
    assert |ks| == |multiset(ks)| == |multiset(d.keys)| == |d.keys|;
    DistinctPermutation(d.keys, ks);
    forall k ensures k in ks <==> k in d.values {
      assert k in ks <==> k in multiset(ks);
      assert k in d.keys <==> k in multiset(d.keys);
    }
  }

  /** Summing over the categories in sorted order gives the same total. */
  lemma SortedTotal(d: ImageMap)
    requires Valid(d)
    ensures forall k :: k in SortBy(d.keys, Identity) ==> k in d.values
    ensures SumBy(SortBy(d.keys, Identity), d.values, Len) == CountTotalImages(d)
  {
    SortedKeys(d);
    SortByPermutes(d.keys, Identity);
    SumByPermutation(d.keys, SortBy(d.keys, Identity), d.values, Len);
  }

  /** The total that `display_stats` / `displayStats` accumulate while walking
      the categories in sorted order. */
  method DisplayStats(d: ImageMap) returns (total: nat)
    requires Valid(d)
    ensures total == CountTotalImages(d)
  {
    var categories := SortBy(d.keys, Identity);
    SortedTotal(d);
    total := 0;
    var i := 0;
    while i < |categories|
      invariant 0 <= i <= |categories|
      invariant total == SumBy(categories[..i], d.values, Len)
    {
      assert categories[..i + 1] == categories[..i] + [categories[i]];
      SumByAppend(categories[..i], categories[i], d.values, Len);
      total := total + |d.values[categories[i]]|;
      i := i + 1;
    }
    assert categories[..|categories|] == categories;
  }

  // ---------------------------------------------------------------------
  // What the map holds. The lemmas are stated for any test `keep` that
  // accepts only files, and then for the scripts' own test.

  ghost predicate FilesOnly(keep: Entry -> bool)
  {
    forall e :: keep(e) ==> e.File?
  }

  predicate IsFolder(e: Entry)
  {
    e.Folder?
  }

  /** No folder of the listing is itself called `other`. */
  predicate NoOtherFolder(es: seq<Entry>)
  {
    Other !in Select(es, IsFolder)
  }

  /** Every stored category is non-empty, and every stored name satisfies
      whatever the names of accepted entries satisfy. */
  lemma {:induction false} ScanHolds(es: seq<Entry>, keep: Entry -> bool, ok: string -> bool)
    requires forall e :: keep(e) ==> ok(e.name)
    ensures forall k :: k in ScanBy(es, keep).values ==>
      ScanBy(es, keep).values[k] != [] && forall n :: n in ScanBy(es, keep).values[k] ==> ok(n)
  {
    if es != [] {
      var init := es[..|es| - 1];
      var e := es[|es| - 1];
      var d := ScanBy(init, keep);
      ScanHolds(init, keep, ok);
      match e
      case Folder(name, listing) =>
        if listing.Some? {
          SelectAll(listing.value, keep, ok);
        }
      case File(name) =>
        if keep(e) {
          var bucket := if Other in d.values then d.values[Other] else [];
          assert forall n :: n in bucket + [name] ==> n in bucket || n == name;
        }
    }
  }

  predicate AllImages(names: seq<string>)
  {
    forall n :: n in names ==> IsImageName(n)
  }

  /** Every stored category holds at least one name, and only image names. */
  predicate WellFormed(d: ImageMap)
  {
    forall k :: k in d.values ==> d.values[k] != [] && AllImages(d.values[k])
  }

  /** The scanner never stores an empty category, and stores only names
      with a supported suffix. */
  lemma ScanWellFormed(es: seq<Entry>)
    ensures WellFormed(Scan(es))
  {
    ScanHolds(es, IsImageFile, IsImageName);
  }

  /** Every category of `d` is `other` or one of `folders`. */
  predicate KeysFrom(d: ImageMap, folders: seq<string>)
  {
    forall k :: k in d.values ==> k == Other || k in folders
  }

  /** One scanning step adds at most the folder's name or `other`. */
  lemma KeyStep(d: ImageMap, e: Entry, keep: Entry -> bool, folders: seq<string>)
    requires Valid(d) && KeysFrom(d, folders)
    ensures KeysFrom(ScanStep(d, e, keep), folders + (if IsFolder(e) then [e.name] else []))
  {
  }

  /** Every category is `other` or the name of a folder in the listing. */
  lemma {:induction false} ScanKeys(es: seq<Entry>, keep: Entry -> bool)
    ensures KeysFrom(ScanBy(es, keep), Select(es, IsFolder))
  {
    if es != [] {
      var n := |es|;
      var init := es[..n - 1];
      ScanKeys(init, keep);
      SelectLast(es, IsFolder);
      KeyStep(ScanBy(init, keep), es[n - 1], keep, Select(init, IsFolder));
    }
  }

  /** What one scanning step does to `other` when the entry is not a folder
      of that name. */
  lemma OtherStep(d: ImageMap, e: Entry, keep: Entry -> bool)
    requires Valid(d) && FilesOnly(keep)
    requires e.Folder? ==> e.name != Other
    ensures Other in ScanStep(d, e, keep).values <==> Other in d.values || keep(e)
    ensures Other in ScanStep(d, e, keep).values ==>
      ScanStep(d, e, keep).values[Other] == (if Other in d.values then d.values[Other] else []) + (if keep(e) then [e.name] else [])
  {
  }

  lemma {:induction false} ScanOtherBy(es: seq<Entry>, keep: Entry -> bool)
    requires FilesOnly(keep) && NoOtherFolder(es)
    ensures Other in ScanBy(es, keep).values <==> Select(es, keep) != []
    ensures Other in ScanBy(es, keep).values ==> ScanBy(es, keep).values[Other] == Select(es, keep)
  {
    if es != [] {
      var n := |es|;
      var init := es[..n - 1];
      SelectLast(es, IsFolder);
      SelectLast(es, keep);
      ScanOtherBy(init, keep);
      OtherStep(ScanBy(init, keep), es[n - 1], keep);
    }
  }

  /** Without a folder called `other`, the `other` category exists exactly
      when there are loose images, and holds them in listing order. */
  lemma ScanOther(es: seq<Entry>)
    requires NoOtherFolder(es)
    ensures Other in Scan(es).values <==> ImageNames(es) != []
    ensures Other in Scan(es).values ==> Scan(es).values[Other] == ImageNames(es)
  {
    ScanOtherBy(es, IsImageFile);
  }

  /** Dropping the last entry keeps the conditions of the exact lemmas
      below, and the last entry, when it is a folder, names no category of
      the map built before it. */
  lemma FoldersInit(es: seq<Entry>, keep: Entry -> bool)
    requires es != [] && NoOtherFolder(es) && Distinct(Select(es, IsFolder))
    ensures var init := es[..|es| - 1];
      NoOtherFolder(init) && Distinct(Select(init, IsFolder))
    ensures es[|es| - 1].Folder? ==> es[|es| - 1].name !in Select(es[..|es| - 1], IsFolder)
    ensures es[|es| - 1].Folder? ==> es[|es| - 1].name !in ScanBy(es[..|es| - 1], keep).values
  {
    var n := |es|;
    var init := es[..n - 1];
    SelectLast(es, IsFolder);
    var folders := Select(init, IsFolder);
    if es[n - 1].Folder? {
      var name := es[n - 1].name;
      DistinctSnoc(folders, name);
      assert Select(es, IsFolder) == folders + [name];
      assert name != Other;
      ScanKeys(init, keep);
    } else {
      assert Select(es, IsFolder) == folders;
    }
  }

  /** The category `name` exists exactly when `images` is not empty, and
      then maps to `images`. */
  predicate MapHolds(d: ImageMap, name: string, images: seq<string>)
  {
    (name in d.values <==> images != []) && (name in d.values ==> d.values[name] == images)
  }

  lemma MapHoldsNew(d: ImageMap, e: Entry, keep: Entry -> bool)
    requires Valid(d) && e.Folder? && e.name !in d.values
    ensures MapHolds(ScanStep(d, e, keep), e.name, Collect(e.listing, keep))
  {
  }

  lemma MapHoldsKept(d: ImageMap, e: Entry, keep: Entry -> bool, name: string, images: seq<string>)
    requires Valid(d) && MapHolds(d, name, images) && name != Other
    requires e.Folder? ==> e.name != name
    ensures MapHolds(ScanStep(d, e, keep), name, images)
  {
  }

  lemma {:induction false} ScanFolderBy(es: seq<Entry>, keep: Entry -> bool, j: nat)
    requires NoOtherFolder(es) && Distinct(Select(es, IsFolder))
    requires j < |es| && es[j].Folder?
    ensures MapHolds(ScanBy(es, keep), es[j].name, Collect(es[j].listing, keep))
  {
    var n := |es|;
    var init := es[..n - 1];
    FoldersInit(es, keep);
    var d0, last := ScanBy(init, keep), es[n - 1];
    var name, images := es[j].name, Collect(es[j].listing, keep);
    assert ScanBy(es, keep) == ScanStep(d0, last, keep);
    if j < n - 1 {
      assert init[j] == es[j];
      ScanFolderBy(init, keep, j);
      assert MapHolds(d0, name, images);
      SelectContains(init, IsFolder, j);
      SelectContains(es, IsFolder, j);
      MapHoldsKept(d0, last, keep, name, images);
    } else {
      MapHoldsNew(d0, last, keep);
    }
  }

  /** Without a folder called `other` and with distinct folder names, a folder
      is a category exactly when it holds images, and then maps to them. */
  lemma ScanFolder(es: seq<Entry>, j: nat)
    requires NoOtherFolder(es) && Distinct(Select(es, IsFolder))
    requires j < |es| && es[j].Folder?
    ensures MapHolds(Scan(es), es[j].name, FolderImages(es[j].listing))
  {
    ScanFolderBy(es, IsImageFile, j);
  }

  /** The number of names `keep` accepts inside the folders of a listing. */
  function FolderCount(es: seq<Entry>, keep: Entry -> bool): nat
  {
    if es == [] then 0
    else
      var e := es[|es| - 1];
      FolderCount(es[..|es| - 1], keep) + (if e.Folder? then |Collect(e.listing, keep)| else 0)
  }

  /** What one scanning step adds to the total, provided a folder with
      images is not already a category. */
  lemma TotalStep(d: ImageMap, e: Entry, keep: Entry -> bool)
    requires Valid(d) && FilesOnly(keep)
    requires e.Folder? && Collect(e.listing, keep) != [] ==> e.name !in d.values
    ensures Total(ScanStep(d, e, keep), Len) == Total(d, Len) +
      (if e.Folder? then |Collect(e.listing, keep)| else if keep(e) then 1 else 0)
  {
    match e
    case Folder(name, listing) =>
      if Collect(listing, keep) != [] {
        TotalPutNew(d, name, Collect(listing, keep), Len);
      }
    case File(name) =>
      if keep(e) {
        var bucket := if Other in d.values then d.values[Other] else [];
        if Other in d.values {
          TotalPutExisting(d, Other, bucket + [name], Len);
        } else {
          TotalPutNew(d, Other, bucket + [name], Len);
        }
      }
  }

  lemma {:induction false} ScanTotalBy(es: seq<Entry>, keep: Entry -> bool)
    requires FilesOnly(keep) && NoOtherFolder(es) && Distinct(Select(es, IsFolder))
    ensures Total(ScanBy(es, keep), Len) == |Select(es, keep)| + FolderCount(es, keep)
  {
    if es != [] {
      var n := |es|;
      var init := es[..n - 1];
      var e := es[n - 1];
      SelectLast(es, keep);
      FoldersInit(es, keep);
      ScanTotalBy(init, keep);
      TotalStep(ScanBy(init, keep), e, keep);
    }
  }

  /** Without a folder called `other` and with distinct folder names, the
      total counts every loose image and every image of every folder once. */
  lemma ScanTotal(es: seq<Entry>)
    requires NoOtherFolder(es) && Distinct(Select(es, IsFolder))
    ensures CountTotalImages(Scan(es)) == |ImageNames(es)| + FolderCount(es, IsImageFile)
  {
    ScanTotalBy(es, IsImageFile);
  }

  /** With a folder called `other`, a loose image listed before that folder
      is lost: the folder's images overwrite the `other` category. */
  lemma OtherFolderOverwrites(x: string, listing: Option<seq<Entry>>)
    requires IsImageName(x) && FolderImages(listing) != []
    ensures var s := Scan([File(x), Folder(Other, listing)]);
      Other in s.values && s.values[Other] == FolderImages(listing)
  {
    var a, sub := File(x), Folder(Other, listing);
    ScanByStep([a, sub], 0, IsImageFile);
    ScanByStep([a, sub], 1, IsImageFile);
    assert [a, sub][..0] == [] && [a, sub][..2] == [a, sub];
    var first := ScanStep(Empty(), a, IsImageFile);
    assert Other in first.values;
    PutPut(Empty<seq<string>>(), Other, [x], FolderImages(listing));
  }

  /** A loose image listed after a folder called `other` is appended to
      that folder's images. */
  lemma OtherFolderAppends(x: string, listing: Option<seq<Entry>>)
    requires IsImageName(x) && FolderImages(listing) != []
    ensures var s := Scan([Folder(Other, listing), File(x)]);
      Other in s.values && s.values[Other] == FolderImages(listing) + [x]
  {
    var a, sub := File(x), Folder(Other, listing);
    ScanByStep([sub, a], 0, IsImageFile);
    ScanByStep([sub, a], 1, IsImageFile);
    assert [sub, a][..0] == [] && [sub, a][..2] == [sub, a];
    var first := ScanStep(Empty(), sub, IsImageFile);
    assert Other in first.values && first.values[Other] == FolderImages(listing);
    PutPut(Empty<seq<string>>(), Other, FolderImages(listing), FolderImages(listing) + [x]);
  }
}

=== FILE: listing.dfy ===
/** The directory snapshot both scripts read, and the image test they share:
    a name is an image when its lower-cased suffix is one of five extensions,
    and directories are never images. */
module Listing {
  import opened Text

  datatype Option<T> = None | Some(value: T)

  /** One entry of a directory listing. A folder carries its own listing, or
      None when listing it raises (permissions, a vanished directory). */
  datatype Entry = File(name: string) | Folder(name: string, listing: Option<seq<Entry>>)

  const ImagesDir: string := "./Images"

  const SupportedExtensions: set<string> := {".jpg", ".jpeg", ".png", ".gif", ".webp"}

  /** `os.path.join(dir, name)` for a plain name. Node's `path.join` would
      drop the leading `./`; paths are kept in Python's form, which does not
      matter because they are only compared with each other. */
  function Join(dir: string, name: string): string
  {
    dir + "/" + name
  }

  lemma {:induction false} JoinInjective(dir: string, a: string, b: string)
    requires Join(dir, a) == Join(dir, b)
    ensures a == b
  {
    assert a == Join(dir, a)[|dir| + 1..];
  }

  /** Index of the last '.' in the name, or -1. */
  function LastDot(s: string): (i: int)
    ensures -1 <= i < |s|
    ensures i >= 0 ==> s[i] == '.'
    ensures forall k :: i < k < |s| ==> s[k] != '.'
  {
    if s == [] then -1
    else if s[|s| - 1] == '.' then |s| - 1
    else LastDot(s[..|s| - 1])
  }

  /** Python's `Path(name).suffix`: from the last dot on, provided that dot is
      neither the first nor the last character. */
  function Suffix(name: string): string
  {
    var i := LastDot(name);
    if 0 < i < |name| - 1 then name[i..] else ""
  }

  /** Node's `path.extname(name)`: from the last dot on, provided the dot is
      not the first character; ".." has none. */
  function ExtName(name: string): string
  {
    var i := LastDot(name);
    if i <= 0 || name == ".." then "" else name[i..]
  }

  predicate IsImageName(name: string)
  {
    Lower(Suffix(name)) in SupportedExtensions
  }

  /** The two suffix rules agree on every name either of them accepts as an
      image, so the Python and JavaScript scripts select the same files and
      carry over the same extension. */
  lemma SuffixAgreesWithExtName(name: string)
    ensures Lower(ExtName(name)) in SupportedExtensions <==> IsImageName(name)
    ensures IsImageName(name) ==> ExtName(name) == Suffix(name)
  {
    var i := LastDot(name);
    if Lower(ExtName(name)) in SupportedExtensions {
      assert |ExtName(name)| >= 4;
    }
    if IsImageName(name) {
      assert |Suffix(name)| >= 4;
    }
  }

  /** A non-empty suffix is one dot followed by characters other than dots. */
  lemma SuffixShape(name: string)
    requires Suffix(name) != []
    ensures var e := Suffix(name); 2 <= |e| && e[0] == '.' && '.' !in e[1..]
  {
    var e := Suffix(name);
    var i := LastDot(name);
    assert e == name[i..];
    forall k | 1 <= k < |e| ensures e[k] != '.' { assert e[k] == name[i + k]; }
  }

  /** A supported suffix is one dot followed by three or four letters. */
  lemma ImageSuffixShape(name: string)
    requires IsImageName(name)
    ensures var e := Suffix(name); 4 <= |e| <= 5 && e[0] == '.' && '.' !in e[1..]
    ensures |Suffix(name)| < |name|
  {
    var e := Suffix(name);
    assert |Lower(e)| == |e| && Lower(e) in SupportedExtensions;
    SuffixShape(name);
  }

  predicate IsImageFile(e: Entry)
  {
    e.File? && IsImageName(e.name)
  }

  /** The names of the entries `keep` accepts, in listing order. */
  function Select(es: seq<Entry>, keep: Entry -> bool): (r: seq<string>)
    ensures |r| <= |es|
  {
    if es == [] then []
    else (if keep(es[0]) then [es[0].name] else []) + Select(es[1..], keep)
  }

  /** The names of the non-directory entries with a supported suffix, in
      listing order: what both `get_images_from_dir` loops collect. */
  function ImageNames(es: seq<Entry>): seq<string>
  {
    Select(es, IsImageFile)
  }

  /** The positions of the entries `keep` accepts, counted from `from`. */
  function Positions(es: seq<Entry>, keep: Entry -> bool, from: nat): seq<nat>
  {
    if es == [] then []
    else (if keep(es[0]) then [from] else []) + Positions(es[1..], keep, from + 1)
  }

  /** Every accepted entry has its position among the positions. */
  lemma SelectComplete(es: seq<Entry>, keep: Entry -> bool)
    ensures forall j :: 0 <= j < |es| && keep(es[j]) ==> j in Positions(es, keep, 0)
  {
    forall j | 0 <= j < |es| && keep(es[j]) ensures j in Positions(es, keep, 0) {
      PositionsComplete(es, keep, 0, j);
    }
  }

  /** `Select` keeps exactly the accepted entries, in listing order: the k-th
      name comes from the k-th accepted position, the positions increase, and
      every accepted entry has its position among them. With `IsImageFile` for
      `keep` this is what both `get_images_from_dir` loops return. */
  lemma SelectExact(es: seq<Entry>, keep: Entry -> bool)
    ensures |Positions(es, keep, 0)| == |Select(es, keep)|
    ensures forall k :: 0 <= k < |Positions(es, keep, 0)| ==>
      var p := Positions(es, keep, 0)[k];
      p < |es| && keep(es[p]) && es[p].name == Select(es, keep)[k]
    ensures forall k, l :: 0 <= k < l < |Positions(es, keep, 0)| ==>
      Positions(es, keep, 0)[k] < Positions(es, keep, 0)[l]
    ensures forall j :: 0 <= j < |es| && keep(es[j]) ==> j in Positions(es, keep, 0)
  {
    SelectPositions(es, keep, 0);
    PositionsIncrease(es, keep, 0);
    SelectComplete(es, keep);
  }

  /** `ps` are positions (counted from `from`) of entries of `es` that `keep`
      accepts, and `r` their names. */
  predicate PositionsMatch(es: seq<Entry>, keep: Entry -> bool, from: nat, r: seq<string>, ps: seq<nat>)
  {
    |ps| == |r| &&
    forall k :: 0 <= k < |ps| ==> from <= ps[k] < from + |es| && keep(es[ps[k] - from]) && es[ps[k] - from].name == r[k]
  }

  lemma PositionsKept(es: seq<Entry>, keep: Entry -> bool, from: nat, r: seq<string>, ps: seq<nat>)
    requires es != [] && keep(es[0]) && PositionsMatch(es[1..], keep, from + 1, r, ps)
    ensures PositionsMatch(es, keep, from, [es[0].name] + r, [from] + ps)
  {
    var r', ps' := [es[0].name] + r, [from] + ps;
    forall k | 0 < k < |ps'|
      ensures from <= ps'[k] < from + |es| && keep(es[ps'[k] - from]) && es[ps'[k] - from].name == r'[k]
    {
      assert ps'[k] == ps[k - 1] && r'[k] == r[k - 1];
      assert es[ps'[k] - from] == es[1..][ps[k - 1] - (from + 1)];
    }
  }

  lemma PositionsSkipped(es: seq<Entry>, keep: Entry -> bool, from: nat, r: seq<string>, ps: seq<nat>)
    requires es != [] && PositionsMatch(es[1..], keep, from + 1, r, ps)
    ensures PositionsMatch(es, keep, from, r, ps)
  {
    forall k | 0 <= k < |ps|
      ensures from <= ps[k] < from + |es| && keep(es[ps[k] - from]) && es[ps[k] - from].name == r[k]
    {
      assert es[ps[k] - from] == es[1..][ps[k] - (from + 1)];
    }
  }

  lemma {:induction false} SelectPositions(es: seq<Entry>, keep: Entry -> bool, from: nat)
    ensures PositionsMatch(es, keep, from, Select(es, keep), Positions(es, keep, from))
  {
    if es != [] {
      var rest := es[1..];
      SelectPositions(rest, keep, from + 1);
      var r0, p0 := Select(rest, keep), Positions(rest, keep, from + 1);
      if keep(es[0]) {
        assert Select(es, keep) == [es[0].name] + r0 && Positions(es, keep, from) == [from] + p0;
        PositionsKept(es, keep, from, r0, p0);
      } else {
        assert Select(es, keep) == r0 && Positions(es, keep, from) == p0;
        PositionsSkipped(es, keep, from, r0, p0);
      }
    }
  }

  predicate IncreasingFrom(ps: seq<nat>, from: nat)
  {
    (forall k :: 0 <= k < |ps| ==> from <= ps[k]) && (forall k, l :: 0 <= k < l < |ps| ==> ps[k] < ps[l])
  }

  lemma ConsIncreasing(from: nat, ps: seq<nat>)
    requires IncreasingFrom(ps, from + 1)
    ensures IncreasingFrom([from] + ps, from)
  {
    var qs := [from] + ps;
    forall k, l | 0 <= k < l < |qs| ensures qs[k] < qs[l] {
      assert qs[l] == ps[l - 1];
      if k > 0 { assert qs[k] == ps[k - 1]; }
    }
  }

  lemma {:induction false} PositionsIncrease(es: seq<Entry>, keep: Entry -> bool, from: nat)
    ensures IncreasingFrom(Positions(es, keep, from), from)
  {
    if es != [] {
      PositionsIncrease(es[1..], keep, from + 1);
      if keep(es[0]) {
        ConsIncreasing(from, Positions(es[1..], keep, from + 1));
      }
    }
  }

  /** An accepted entry at position j is preceded by exactly as many accepted
      entries as its rank among the positions. */
  lemma {:induction false} PositionsComplete(es: seq<Entry>, keep: Entry -> bool, from: nat, j: nat)
    requires j < |es| && keep(es[j])
    ensures var c := |Select(es[..j], keep)|;
      c < |Positions(es, keep, from)| && Positions(es, keep, from)[c] == from + j
  {
    var rest := es[1..];
    var h: seq<nat> := if keep(es[0]) then [from] else [];
    assert Positions(es, keep, from) == h + Positions(rest, keep, from + 1);
    if j > 0 {
      PositionsComplete(rest, keep, from + 1, j - 1);
      assert es[..j] == [es[0]] + rest[..j - 1];
      assert |Select(es[..j], keep)| == |h| + |Select(rest[..j - 1], keep)|;
    } else {
      assert es[..j] == [];
    }
  }

  lemma ImageNamesAreImages(es: seq<Entry>)
    ensures forall n :: n in ImageNames(es) ==> IsImageName(n)
  {
    SelectPositions(es, IsImageFile, 0);
  }

  lemma {:induction false} SelectConcat(a: seq<Entry>, b: seq<Entry>, keep: Entry -> bool)
    ensures Select(a + b, keep) == Select(a, keep) + Select(b, keep)
  {
    if a != [] {
      assert (a + b)[0] == a[0] && (a + b)[1..] == a[1..] + b;
      SelectConcat(a[1..], b, keep);
    } else {
      assert a + b == b;
    }
  }

  /** One more entry extends the selection by at most its own name. */
  lemma SelectSnoc(es: seq<Entry>, i: nat, keep: Entry -> bool)
    requires i < |es|
    ensures Select(es[..i + 1], keep) == Select(es[..i], keep) + (if keep(es[i]) then [es[i].name] else [])
  {
    assert es[..i + 1] == es[..i] + [es[i]];
    SelectConcat(es[..i], [es[i]], keep);
    assert Select([es[i]], keep) == (if keep(es[i]) then [es[i].name] else []) + Select([], keep);
  }

  lemma SelectLast(es: seq<Entry>, keep: Entry -> bool)
    requires es != []
    ensures Select(es, keep) == Select(es[..|es| - 1], keep) + (if keep(es[|es| - 1]) then [es[|es| - 1].name] else [])
  {
    SelectSnoc(es, |es| - 1, keep);
    assert es[..|es|] == es;
  }

  lemma {:induction false} SelectContains(es: seq<Entry>, keep: Entry -> bool, j: nat)
    requires j < |es| && keep(es[j])
    ensures es[j].name in Select(es, keep)
  {
    if j > 0 {
      SelectContains(es[1..], keep, j - 1);
    }
  }

  /** A property of the names of all accepted entries holds for everything selected. */
  lemma {:induction false} SelectAll(es: seq<Entry>, keep: Entry -> bool, ok: string -> bool)
    requires forall e :: keep(e) ==> ok(e.name)
    ensures forall n :: n in Select(es, keep) ==> ok(n)
  {
    if es != [] {
      SelectAll(es[1..], keep, ok);
    }
  }

  function EntryName(e: Entry): string
  {
    e.name
  }

  function Identity(n: string): string
  {
    n
  }

  /** The Python renamer's listing: sort all names, then keep the images. */
  function SortThenFilter(es: seq<Entry>): seq<string>
  {
    ImageNames(SortBy(es, EntryName))
  }

  /** The JavaScript renamer's listing: keep the images, then sort them. */
  function FilterThenSort(es: seq<Entry>): seq<string>
  {
    SortBy(ImageNames(es), Identity)
  }

  lemma {:induction false} SelectLowerBound(b: string, s: seq<Entry>, keep: Entry -> bool)
    requires AllAtLeast(b, s, EntryName)
    ensures AllAtLeast(b, Select(s, keep), Identity)
  {
    if s != [] {
      SelectLowerBound(b, s[1..], keep);
    }
  }

  lemma {:induction false} SelectInsert(e: Entry, s: seq<Entry>, keep: Entry -> bool)
    requires SortedBy(s, EntryName)
    ensures Select(Insert(e, s, EntryName), keep)
         == if keep(e) then Insert(e.name, Select(s, keep), Identity) else Select(s, keep)
  {
    var he := if keep(e) then [e.name] else [];
    if s == [] {
      assert Insert(e, s, EntryName) == [e];
      assert Select([e], keep) == he + Select([], keep);
    } else if LexLe(e.name, s[0].name) {
      var r := [e] + s;
      assert Insert(e, s, EntryName) == r;
      assert r[0] == e && r[1..] == s;
      assert Select(r, keep) == he + Select(s, keep);
      var t := Select(s, keep);
      if keep(e) && t != [] {
        forall j | 0 <= j < |s| ensures LexLe(e.name, EntryName(s[j])) {
          if j > 0 { LexLeTrans(e.name, s[0].name, s[j].name); }
        }
        SelectLowerBound(e.name, s, keep);
        assert LexLe(Identity(e.name), Identity(t[0]));
        assert Insert(e.name, t, Identity) == [e.name] + t;
      }
    } else {
      var s0, rest := s[0], s[1..];
      var r := [s0] + Insert(e, rest, EntryName);
      assert Insert(e, s, EntryName) == r;
      assert r[0] == s0 && r[1..] == Insert(e, rest, EntryName);
      var h0 := if keep(s0) then [s0.name] else [];
      assert Select(r, keep) == h0 + Select(Insert(e, rest, EntryName), keep);
      SelectInsert(e, rest, keep);
      assert Select(s, keep) == h0 + Select(rest, keep);
      if keep(e) && keep(s0) {
        var t := Select(s, keep);
        assert t[0] == s0.name && t[1..] == Select(rest, keep);
        assert !LexLe(Identity(e.name), Identity(t[0]));
        assert Insert(e.name, t, Identity) == [s0.name] + Insert(e.name, Select(rest, keep), Identity);
      } else if keep(e) {
        assert h0 == [];
        assert Select(s, keep) == Select(rest, keep);
        assert Select(r, keep) == Insert(e.name, Select(rest, keep), Identity);
      } else {
        assert Select(r, keep) == Select(s, keep);
      }
    }
  }

  lemma {:induction false} SelectSortCommute(es: seq<Entry>, keep: Entry -> bool)
    ensures Select(SortBy(es, EntryName), keep) == SortBy(Select(es, keep), Identity)
  {
    if es != [] {
      SelectSortCommute(es[1..], keep);
      SortBySorted(es[1..], EntryName);
      SelectInsert(es[0], SortBy(es[1..], EntryName), keep);
      var t := Select(es[1..], keep);
      if keep(es[0]) {
        var u := [es[0].name] + t;
        assert Select(es, keep) == u && u[0] == es[0].name && u[1..] == t;
      } else {
        assert Select(es, keep) == t;
      }
    }
  }

  /** Both renamers list the same images in the same order. */
  lemma SortThenFilterIsFilterThenSort(es: seq<Entry>)
    ensures SortThenFilter(es) == FilterThenSort(es)
  {
    SelectSortCommute(es, IsImageFile);
  }

  /** The renamer's listing is sorted and holds exactly the listing's images. */
  lemma SortedImagesSpec(es: seq<Entry>)
    ensures SortedBy(SortThenFilter(es), Identity)
    ensures multiset(SortThenFilter(es)) == multiset(ImageNames(es))
  {
    SortThenFilterIsFilterThenSort(es);
    SortBySorted(ImageNames(es), Identity);
    SortByPermutes(ImageNames(es), Identity);
  }
}

=== FILE: plan_props.dfy ===
/** What the rename plan holds. As for the scanner, the lemmas about the
    planning loop are stated for any test `keep` that accepts only files,
    and then for the renamer's own test. */
module PlanProps {
  import opened Text
  import opened Listing
  import opened Dicts
  import opened ImageData
  import opened FileNames
  import opened RenamePlan

  // ---------------------------------------------------------------------
  // The renames of one category.

  predicate HasSuffix(name: string)
  {
    Suffix(name) != []
  }

  lemma ImageHasSuffix(name: string)
    requires IsImageName(name)
    ensures HasSuffix(name)
  {
    ImageSuffixShape(name);
  }

  lemma SuffixStartsWithDot(name: string)
    requires HasSuffix(name)
    ensures Suffix(name)[0] == '.'
  {
  }

  predicate NewNamesDistinct(rs: seq<Rename>)
  {
    forall m, l :: 0 <= m < l < |rs| ==> rs[m].newName != rs[l].newName
  }

  /** Within a folder, no two images are given the same new name, and each
      keeps its extension. */
  lemma CategoryRenamesDistinct(category: string, dir: string, images: seq<string>)
    requires forall n :: n in images ==> HasSuffix(n)
    ensures NewNamesDistinct(CategoryRenames(category, dir, images))
    ensures forall m, l :: 0 <= m < l < |images| ==>
      CategoryRenames(category, dir, images)[m].newPath != CategoryRenames(category, dir, images)[l].newPath
    ensures forall m :: 0 <= m < |images| ==>
      CategoryRenames(category, dir, images)[m].oldName == images[m] &&
      Suffix(CategoryRenames(category, dir, images)[m].newName) == Suffix(images[m])
  {
    var r := CategoryRenames(category, dir, images);
    var n := |images|;
    forall m, l | 0 <= m < l < n ensures r[m].newName != r[l].newName && r[m].newPath != r[l].newPath {
      SuffixStartsWithDot(images[m]);
      SuffixStartsWithDot(images[l]);
      NewFilenameInjective(category, m + 1, l + 1, n, Suffix(images[m]), Suffix(images[l]));
      if r[m].newPath == r[l].newPath {
        JoinInjective(dir, r[m].newName, r[l].newName);
      }
    }
    forall m | 0 <= m < n ensures Suffix(r[m].newName) == Suffix(images[m]) {
      var e := Suffix(images[m]);
      assert images[m] in images;
      var h := Prefix + Sanitize(category) + "-" + FormatIndex(m + 1, n);
      SuffixShape(images[m]);
      SuffixAfter(h, e);
    }
  }

  /** Below 10000 images a folder's new names sort in the order of the
      images they replace. */
  lemma CategoryRenamesOrdered(category: string, dir: string, images: seq<string>)
    requires |images| < 10000
    ensures forall m, l :: 0 <= m < l < |images| ==>
      LexLess(CategoryRenames(category, dir, images)[m].newName, CategoryRenames(category, dir, images)[l].newName)
  {
    var r := CategoryRenames(category, dir, images);
    forall m, l | 0 <= m < l < |images| ensures LexLess(r[m].newName, r[l].newName) {
      NewFilenameOrder(category, m + 1, l + 1, |images|, Suffix(images[m]), Suffix(images[l]));
    }
  }

  lemma NumbersApart(category: string, rs: seq<Rename>, m: nat, l: nat)
    requires m < l < |rs| && HasSuffix(rs[m].oldName) && HasSuffix(rs[l].oldName)
    ensures NewFilename(category, m + 1, |rs|, Suffix(rs[m].oldName)) != NewFilename(category, l + 1, |rs|, Suffix(rs[l].oldName))
  {
    SuffixStartsWithDot(rs[m].oldName);
    SuffixStartsWithDot(rs[l].oldName);
    NewFilenameInjective(category, m + 1, l + 1, |rs|, Suffix(rs[m].oldName), Suffix(rs[l].oldName));
  }

  /** The numbering pass gives distinct names to renames whose old names
      all have a suffix, whatever names they had before. */
  lemma RenumberDistinct(rs: seq<Rename>)
    requires forall m :: 0 <= m < |rs| ==> HasSuffix(rs[m].oldName)
    ensures NewNamesDistinct(Renumber(rs))
    ensures forall m :: 0 <= m < |rs| ==>
      Renumber(rs)[m].oldName == rs[m].oldName && Renumber(rs)[m].oldPath == rs[m].oldPath
  {
    var r := Renumber(rs);
    forall m, l | 0 <= m < l < |rs| ensures r[m].newName != r[l].newName {
      NumbersApart(Other, rs, m, l);
    }
  }

  // ---------------------------------------------------------------------
  // The first pass.

  lemma KeysStep(p: Plan, e: Entry, keep: Entry -> bool, k: string)
    requires Valid(p.categories)
    requires k in PlanStep(p, e, keep).categories.values
    ensures k in p.categories.values || k == Other || (e.Folder? && k == e.name)
  {
  }

  /** Every category is `other` or the name of a folder in the listing. */
  lemma {:induction false} FirstPassKeys(es: seq<Entry>, keep: Entry -> bool)
    ensures forall k :: k in FirstPassBy(es, keep).categories.values ==> k == Other || k in Select(es, IsFolder)
  {
    if es != [] {
      var n := |es|;
      var init := es[..n - 1];
      FirstPassKeys(init, keep);
      SelectLast(es, IsFolder);
      forall k | k in FirstPassBy(es, keep).categories.values ensures k == Other || k in Select(es, IsFolder) {
        KeysStep(FirstPassBy(init, keep), es[n - 1], keep, k);
      }
    }
  }

  /** Dropping the last entry keeps the conditions, and the last entry, when
      it is a folder, names no category of the plan built before it. */
  lemma PlanInit(es: seq<Entry>, keep: Entry -> bool)
    requires es != [] && NoOtherFolder(es) && Distinct(Select(es, IsFolder))
    ensures var init := es[..|es| - 1];
      NoOtherFolder(init) && Distinct(Select(init, IsFolder))
    ensures es[|es| - 1].Folder? ==> es[|es| - 1].name !in Select(es[..|es| - 1], IsFolder)
    ensures es[|es| - 1].Folder? ==> es[|es| - 1].name != Other
    ensures es[|es| - 1].Folder? ==> es[|es| - 1].name !in FirstPassBy(es[..|es| - 1], keep).categories.values
  {
    var n := |es|;
    var init := es[..n - 1];
    FoldersInit(es, keep);
    SelectLast(es, IsFolder);
    if es[n - 1].Folder? {
      FirstPassKeys(init, keep);
    }
  }

  /** What one planning step does to `other` when the entry is not a folder
      of that name. */
  lemma OtherPlanStep(p: Plan, e: Entry, keep: Entry -> bool)
    requires Valid(p.categories) && FilesOnly(keep)
    requires e.Folder? ==> e.name != Other
    ensures var r := PlanStep(p, e, keep);
      (Other in r.categories.values <==> Other in p.categories.values || keep(e)) &&
      (Other in r.categories.values ==>
        r.categories.values[Other].path == (if Other in p.categories.values then p.categories.values[Other].path else ImagesDir) &&
        r.categories.values[Other].renames ==
          (if Other in p.categories.values then p.categories.values[Other].renames else []) +
          (if keep(e) then [Placeholder(e.name)] else []))
  {
  }

  lemma PlaceholdersSnoc(names: seq<string>, x: string)
    ensures Placeholders(names + [x]) == Placeholders(names) + [Placeholder(x)]
  {
  }

  /** `other` holds placeholders for exactly `names`, at the Images folder. */
  predicate OtherHolds(p: Plan, names: seq<string>)
  {
    (Other in p.categories.values <==> names != []) &&
    (Other in p.categories.values ==> p.categories.values[Other] == Category(ImagesDir, Placeholders(names)))
  }

  lemma OtherHoldsStep(p: Plan, e: Entry, keep: Entry -> bool, names: seq<string>)
    requires Valid(p.categories) && FilesOnly(keep) && OtherHolds(p, names)
    requires e.Folder? ==> e.name != Other
    ensures OtherHolds(PlanStep(p, e, keep), names + (if keep(e) then [e.name] else []))
  {
    OtherPlanStep(p, e, keep);
    if keep(e) {
      PlaceholdersSnoc(names, e.name);
    } else {
      assert names + [] == names;
    }
  }

  lemma {:induction false} FirstPassOther(es: seq<Entry>, keep: Entry -> bool)
    requires FilesOnly(keep) && NoOtherFolder(es)
    ensures OtherHolds(FirstPassBy(es, keep), Select(es, keep))
  {
    if es != [] {
      var n := |es|;
      var init := es[..n - 1];
      SelectLast(es, IsFolder);
      SelectLast(es, keep);
      FirstPassOther(init, keep);
      OtherHoldsStep(FirstPassBy(init, keep), es[n - 1], keep, Select(init, keep));
    }
  }

  /** The category `name` exists exactly when `images` is not empty, lives in
      the folder of that name and numbers `images` in order. */
  predicate FolderHolds(p: Plan, name: string, images: seq<string>)
  {
    var dir := Join(ImagesDir, name);
    (name in p.categories.values <==> images != []) &&
    (name in p.categories.values ==> p.categories.values[name] == Category(dir, CategoryRenames(name, dir, images)))
  }

  lemma FolderHoldsNew(p: Plan, e: Entry, keep: Entry -> bool)
    requires Valid(p.categories) && e.Folder? && e.name !in p.categories.values
    ensures FolderHolds(PlanStep(p, e, keep), e.name, SortedCollect(e.listing, keep))
  {
  }

  lemma FolderHoldsKept(p: Plan, e: Entry, keep: Entry -> bool, name: string, images: seq<string>)
    requires Valid(p.categories) && FolderHolds(p, name, images) && name != Other
    requires e.Folder? ==> e.name != name
    ensures FolderHolds(PlanStep(p, e, keep), name, images)
  {
  }

  lemma {:induction false} FirstPassFolder(es: seq<Entry>, keep: Entry -> bool, j: nat)
    requires NoOtherFolder(es) && Distinct(Select(es, IsFolder))
    requires j < |es| && es[j].Folder?
    ensures FolderHolds(FirstPassBy(es, keep), es[j].name, SortedCollect(es[j].listing, keep))
  {
    var n := |es|;
    var init := es[..n - 1];
    PlanInit(es, keep);
    var p0, last := FirstPassBy(init, keep), es[n - 1];
    var name, images := es[j].name, SortedCollect(es[j].listing, keep);
    assert FirstPassBy(es, keep) == PlanStep(p0, last, keep);
    if j < n - 1 {
      assert init[j] == es[j];
      FirstPassFolder(init, keep, j);
      assert FolderHolds(p0, name, images);
      SelectContains(init, IsFolder, j);
      SelectContains(es, IsFolder, j);
      FolderHoldsKept(p0, last, keep, name, images);
      assert FolderHolds(PlanStep(p0, last, keep), name, images);
    } else {
      FolderHoldsNew(p0, last, keep);
      assert last == es[j];
      assert FolderHolds(PlanStep(p0, last, keep), name, images);
    }
  }

  function RenameCount(c: Category): nat
  {
    |c.renames|
  }

  /** The renames of `other` before numbering, none when it is missing. */
  function Pending(p: Plan): nat
  {
    if Other in p.categories.values then |p.categories.values[Other].renames| else 0
  }

  /** The totals count every category but `other`, which is counted once
      the loop is over. */
  ghost predicate Counted(p: Plan)
  {
    Valid(p.categories) &&
    p.totalFiles + Pending(p) == Total(p.categories, RenameCount) &&
    p.totalCategories + (if Other in p.categories.values then 1 else 0) == |p.categories.keys|
  }

  lemma CountedStep(p: Plan, e: Entry, keep: Entry -> bool)
    requires Counted(p) && FilesOnly(keep)
    requires e.Folder? ==> e.name != Other && e.name !in p.categories.values
    ensures Counted(PlanStep(p, e, keep))
  {
    var cats := p.categories;
    match e
    case Folder(name, listing) =>
      var images := SortedCollect(listing, keep);
      if images != [] {
        var dir := Join(ImagesDir, name);
        var c := Category(dir, CategoryRenames(name, dir, images));
        TotalPutNew(cats, name, c, RenameCount);
        PutKeys(cats, name, c);
      }
    case File(name) =>
      if keep(e) {
        var c := if Other in cats.values then cats.values[Other] else Category(ImagesDir, []);
        var c' := c.(renames := c.renames + [Placeholder(name)]);
        PutKeys(cats, Other, c');
        if Other in cats.values {
          TotalPutExisting(cats, Other, c', RenameCount);
        } else {
          TotalPutNew(cats, Other, c', RenameCount);
        }
      }
  }

  lemma {:induction false} FirstPassCounted(es: seq<Entry>, keep: Entry -> bool)
    requires FilesOnly(keep) && NoOtherFolder(es) && Distinct(Select(es, IsFolder))
    ensures Counted(FirstPassBy(es, keep))
  {
    if es != [] {
      var n := |es|;
      var init := es[..n - 1];
      PlanInit(es, keep);
      FirstPassCounted(init, keep);
      CountedStep(FirstPassBy(init, keep), es[n - 1], keep);
    }
  }

  /** The first pass counts exactly the images inside folders. */
  lemma {:induction false} FirstPassFiles(es: seq<Entry>, keep: Entry -> bool)
    ensures FirstPassBy(es, keep).totalFiles == FolderCount(es, keep)
  {
    if es != [] {
      var n := |es|;
      FirstPassFiles(es[..n - 1], keep);
      if es[n - 1].Folder? {
        SortedCollectSpec(es[n - 1].listing, keep);
      }
    }
  }

  /** Numbering `other` once the counts are in makes them exact. */
  lemma FinishCounted(p: Plan)
    requires Counted(p)
    ensures Finish(p).totalFiles == Total(Finish(p).categories, RenameCount)
    ensures Finish(p).totalCategories == |Finish(p).categories.keys|
  {
    if Other in p.categories.values {
      var c := p.categories.values[Other];
      var c' := c.(renames := Renumber(c.renames));
      TotalPutExisting(p.categories, Other, c', RenameCount);
      PutKeys(p.categories, Other, c');
    }
  }

  lemma FinishKeeps(p: Plan, k: string)
    requires Valid(p.categories) && k != Other
    ensures k in Finish(p).categories.values <==> k in p.categories.values
    ensures k in p.categories.values ==> Finish(p).categories.values[k] == p.categories.values[k]
  {
  }

  lemma FolderHoldsFinish(p: Plan, name: string, images: seq<string>)
    requires Valid(p.categories) && name != Other && FolderHolds(p, name, images)
    ensures FolderHolds(Finish(p), name, images)
  {
    FinishKeeps(p, name);
  }

  /** Every planned old name has a suffix, and the new names of every
      category but `other` (still waiting for its numbers) are distinct. */
  ghost predicate Distinguished(p: Plan)
  {
    forall k :: k in p.categories.values ==>
      (forall m :: 0 <= m < |p.categories.values[k].renames| ==> HasSuffix(p.categories.values[k].renames[m].oldName)) &&
      (k != Other ==> NewNamesDistinct(p.categories.values[k].renames))
  }

  lemma DistinguishedFolder(p: Plan, name: string, dir: string, images: seq<string>)
    requires Valid(p.categories) && Distinguished(p)
    requires forall n :: n in images ==> HasSuffix(n)
    ensures Distinguished(p.(categories := Put(p.categories, name, Category(dir, CategoryRenames(name, dir, images)))))
  {
    var c := Category(dir, CategoryRenames(name, dir, images));
    CategoryRenamesDistinct(name, dir, images);
    PutKeys(p.categories, name, c);
    forall m | 0 <= m < |images| ensures HasSuffix(c.renames[m].oldName) {
      assert images[m] in images;
    }
  }

  lemma DistinguishedFile(p: Plan, name: string)
    requires Valid(p.categories) && Distinguished(p) && HasSuffix(name)
    ensures var c := if Other in p.categories.values then p.categories.values[Other] else Category(ImagesDir, []);
      Distinguished(p.(categories := Put(p.categories, Other, c.(renames := c.renames + [Placeholder(name)]))))
  {
    var c := if Other in p.categories.values then p.categories.values[Other] else Category(ImagesDir, []);
    var c' := c.(renames := c.renames + [Placeholder(name)]);
    PutKeys(p.categories, Other, c');
    forall m | 0 <= m < |c'.renames| ensures HasSuffix(c'.renames[m].oldName) {
      if m < |c.renames| {
        assert c'.renames[m] == c.renames[m];
      }
    }
  }

  lemma DistinguishedStep(p: Plan, e: Entry, keep: Entry -> bool)
    requires Valid(p.categories) && Distinguished(p)
    requires forall e' :: keep(e') ==> HasSuffix(e'.name)
    ensures Distinguished(PlanStep(p, e, keep))
  {
    match e
    case Folder(name, listing) =>
      var images := SortedCollect(listing, keep);
      if images != [] {
        assert forall n :: n in images ==> HasSuffix(n) by {
          SelectAll(SortBy(listing.value, EntryName), keep, HasSuffix);
        }
        var dir := Join(ImagesDir, name);
        DistinguishedFolder(p, name, dir, images);
        assert PlanStep(p, e, keep).categories == Put(p.categories, name, Category(dir, CategoryRenames(name, dir, images)));
      }
    case File(name) =>
      if keep(e) {
        DistinguishedFile(p, name);
      }
  }

  lemma {:induction false} FirstPassDistinguished(es: seq<Entry>, keep: Entry -> bool)
    requires forall e :: keep(e) ==> HasSuffix(e.name)
    ensures Distinguished(FirstPassBy(es, keep))
  {
    if es != [] {
      FirstPassDistinguished(es[..|es| - 1], keep);
      DistinguishedStep(FirstPassBy(es[..|es| - 1], keep), es[|es| - 1], keep);
    }
  }

  // ---------------------------------------------------------------------
  // The plan.

  /** Without a folder called `other`, the `other` category exists exactly
      when there are loose images; it lives in the Images folder and numbers
      them in listing order, as if they were a folder of their own. */
  lemma PlanOther(es: seq<Entry>)
    requires NoOtherFolder(es)
    ensures Other in PlanOf(es).categories.values <==> ImageNames(es) != []
    ensures Other in PlanOf(es).categories.values ==>
      PlanOf(es).categories.values[Other] == Category(ImagesDir, CategoryRenames(Other, ImagesDir, ImageNames(es)))
  {
    FirstPassOther(es, IsImageFile);
    RenumberPlaceholders(ImageNames(es));
  }

  /** Without a folder called `other` and with distinct folder names, a
      folder is a category exactly when it holds images, and its renames
      number those images in sorted order inside the folder. */
  lemma PlanFolder(es: seq<Entry>, j: nat)
    requires NoOtherFolder(es) && Distinct(Select(es, IsFolder))
    requires j < |es| && es[j].Folder?
    ensures FolderHolds(PlanOf(es), es[j].name, SortedImages(es[j].listing))
  {
    FirstPassFolder(es, IsImageFile, j);
    SelectContains(es, IsFolder, j);
    FolderHoldsFinish(FirstPassBy(es, IsImageFile), es[j].name, SortedImages(es[j].listing));
  }

  /** Whatever the listing, no two renames of one category share a new
      name: the numbering keeps them apart even where a folder called
      `other` and loose images end up together. */
  lemma PlanNamesDistinct(es: seq<Entry>)
    ensures forall k :: k in PlanOf(es).categories.values ==> NewNamesDistinct(PlanOf(es).categories.values[k].renames)
  {
    forall e | IsImageFile(e) ensures HasSuffix(e.name) {
      ImageHasSuffix(e.name);
    }
    var p := FirstPassBy(es, IsImageFile);
    FirstPassDistinguished(es, IsImageFile);
    if Other in p.categories.values {
      RenumberDistinct(p.categories.values[Other].renames);
    }
  }

  /** Without a folder called `other` and with distinct folder names, the
      reported totals are the number of planned renames and the number of
      categories, and the renamer counts the same images as the generator. */
  lemma PlanTotals(es: seq<Entry>)
    requires NoOtherFolder(es) && Distinct(Select(es, IsFolder))
    ensures PlanOf(es).totalFiles == Total(PlanOf(es).categories, RenameCount)
    ensures PlanOf(es).totalCategories == |PlanOf(es).categories.keys|
    ensures PlanOf(es).totalFiles == CountTotalImages(Scan(es))
  {
    var p := FirstPassBy(es, IsImageFile);
    FirstPassCounted(es, IsImageFile);
    FinishCounted(p);
    FirstPassFiles(es, IsImageFile);
    FirstPassOther(es, IsImageFile);
    ScanTotal(es);
  }

  /** Whatever the listing, the numbering pass puts every new path of
      `other` directly in the Images folder, numbered 1..n in plan order. */
  lemma PlanOtherNewPaths(es: seq<Entry>)
    ensures var p := PlanOf(es); Other in p.categories.values ==>
      var rs := p.categories.values[Other].renames;
      forall m :: 0 <= m < |rs| ==>
        rs[m].newPath == Join(ImagesDir, rs[m].newName) &&
        rs[m].newName == NewFilename(Other, m + 1, |rs|, Suffix(rs[m].oldName))
  {
    var first := FirstPassBy(es, IsImageFile);
    if Other in first.categories.values {
      var c := first.categories.values[Other];
      var c' := c.(renames := Renumber(c.renames));
      PutKeys(first.categories, Other, c');
      assert PlanOf(es).categories.values[Other] == c';
      forall m | 0 <= m < |c'.renames|
        ensures c'.renames[m] == Renumbered(c.renames, m)
      {
      }
    }
  }

  /** The plan of an Images folder holding only a folder called `other`:
      one category, the folder's renames numbered a second time, and the
      folder's images and the category counted twice. */
  lemma OtherFolderPlan(listing: Option<seq<Entry>>)
    requires SortedImages(listing) != []
    ensures var images, dir := SortedImages(listing), Join(ImagesDir, Other);
      PlanOf([Folder(Other, listing)]) ==
        Plan(Put(Empty(), Other, Category(dir, Renumber(CategoryRenames(Other, dir, images)))), 2 * |images|, 2)
  {
    var es := [Folder(Other, listing)];
    var images := SortedImages(listing);
    var dir := Join(ImagesDir, Other);
    var c := Category(dir, CategoryRenames(Other, dir, images));
    assert es[..0] == [] && es[..1] == es;
    FirstPassStep(es, 0, IsImageFile);
    var first := FirstPassBy(es, IsImageFile);
    assert first == PlanStep(Plan(Empty(), 0, 0), es[0], IsImageFile);
    assert first == Plan(Put(Empty(), Other, c), |images|, 1);
    var c' := c.(renames := Renumber(c.renames));
    PutPut(Empty(), Other, c, c');
  }

  /** For an Images folder holding only a folder called `other`, its images
      are counted twice and the category is counted twice, while the plan
      holds one category with one rename per image. */
  lemma OtherFolderDoubleCounts(listing: Option<seq<Entry>>)
    requires SortedImages(listing) != []
    ensures var p, n := PlanOf([Folder(Other, listing)]), |SortedImages(listing)|;
      && p.categories.keys == [Other] && Other in p.categories.values
      && p.totalFiles == 2 * n && Total(p.categories, RenameCount) == n
      && p.totalCategories == 2
  {
    var images, dir := SortedImages(listing), Join(ImagesDir, Other);
    var c' := Category(dir, Renumber(CategoryRenames(Other, dir, images)));
    OtherFolderPlan(listing);
    TotalPutNew(Empty(), Other, c', RenameCount);
    assert Total(Empty<Category>(), RenameCount) == 0;
  }

  /** For an Images folder holding only a folder called `other`, the
      numbering pass gives the folder's images new paths in the Images
      folder, out of the folder they are in. */
  lemma OtherFolderMovesOut(listing: Option<seq<Entry>>)
    requires SortedImages(listing) != []
    ensures var p, n := PlanOf([Folder(Other, listing)]), |SortedImages(listing)|;
      && Other in p.categories.values && |p.categories.values[Other].renames| == n
      && forall m :: 0 <= m < n ==>
           var r := p.categories.values[Other].renames[m];
           r.oldPath == Join(Join(ImagesDir, Other), r.oldName) && r.newPath == Join(ImagesDir, r.newName)
  {
    OtherFolderPlan(listing);
  }
}

=== FILE: rename_exec.dfy ===
/** The executing half of the renamer: walk the plan category by category,
    skip what cannot or need not be renamed, rename the rest, and count
    what happened. The file system is a set of existing paths. */
module RenameExec {
  import opened Text
  import opened Listing
  import opened Dicts
  import opened RenamePlan
  import opened PlanDisplay
  import opened ImageData

  /** The paths that exist, changed only by renaming. */
  class FileTree {
    var paths: set<string>

    constructor (existing: set<string>)
      ensures paths == existing
    {
      paths := existing;
    }

    /** `os.rename` / `fs.renameSync`. `fails` stands for an error the
        operating system reports; a missing source fails too. */
    method Rename(src: string, dst: string, fails: bool) returns (ok: bool)
      modifies this
      ensures ok <==> !fails && src in old(paths)
      ensures paths == if ok then Moved(old(paths), src, dst) else old(paths)
    {
      ok := !fails && src in paths;
      if ok {
        paths := Moved(paths, src, dst);
      }
    }
  }

  function Moved(paths: set<string>, src: string, dst: string): set<string>
  {
    paths - {src} + {dst}
  }

  /** What happened to one planned rename. */
  datatype Outcome =
    | Renamed
    | Missing        // the old path does not exist: skipped
    | Occupied       // another file already has the new path: skipped
    | AlreadyNamed   // the old and new names are the same: skipped
    | Failed         // the rename raised an error

  /** One iteration of the inner loop of `execute_renames` /
      `executeRenames`, with the checks in the scripts' order. */
  function Step(paths: set<string>, r: Rename, fails: bool): (res: (Outcome, set<string>))
    ensures res.0 == Missing <==> r.oldPath !in paths
    ensures res.0 == Occupied <==> r.oldPath in paths && r.newPath in paths && r.oldPath != r.newPath
    ensures res.0 == AlreadyNamed <==>
      r.oldPath in paths && (r.newPath !in paths || r.oldPath == r.newPath) && r.oldName == r.newName
    ensures res.0 == Failed <==>
      r.oldPath in paths && (r.newPath !in paths || r.oldPath == r.newPath) && r.oldName != r.newName && fails
    ensures res.0 == Renamed <==>
      r.oldPath in paths && (r.newPath !in paths || r.oldPath == r.newPath) && r.oldName != r.newName && !fails
    ensures res.1 == if res.0 == Renamed then Moved(paths, r.oldPath, r.newPath) else paths
    ensures |res.1| == |paths|
  {
    if r.oldPath !in paths then (Missing, paths)
    else if r.newPath in paths && r.oldPath != r.newPath then (Occupied, paths)
    else if r.oldName == r.newName then (AlreadyNamed, paths)
    else if fails then (Failed, paths)
    else
      var paths' := Moved(paths, r.oldPath, r.newPath);
      assert r.oldPath != r.newPath ==> paths' == (paths - {r.oldPath}) + {r.newPath} && r.newPath !in paths - {r.oldPath};
      assert r.oldPath == r.newPath ==> paths' == paths;
      (Renamed, paths')
  }

  /** The renames in the order they are executed: category by category in
      the order the categories were stored, each in plan order. */
  function FlattenKeys(ks: seq<string>, m: map<string, Category>): seq<Rename>
    requires forall k :: k in ks ==> k in m
  {
    if ks == [] then [] else FlattenKeys(ks[..|ks| - 1], m) + m[ks[|ks| - 1]].renames
  }

  function Flatten(cats: Dict<Category>): seq<Rename>
    requires Valid(cats)
  {
    FlattenKeys(cats.keys, cats.values)
  }

  /** Executing `rs` on `paths`: the outcome of each rename and the paths
      afterwards. The rename at position i fails when i is in `failing`. */
  function Run(paths: set<string>, rs: seq<Rename>, failing: set<nat>): (res: (seq<Outcome>, set<string>))
    ensures |res.0| == |rs|
  {
    if rs == [] then ([], paths)
    else
      var before := Run(paths, rs[..|rs| - 1], failing);
      var step := Step(before.1, rs[|rs| - 1], |rs| - 1 in failing);
      (before.0 + [step.0], step.1)
  }

  lemma RunSnoc(paths: set<string>, rs: seq<Rename>, r: Rename, failing: set<nat>)
    ensures var before := Run(paths, rs, failing);
      var step := Step(before.1, r, |rs| in failing);
      Run(paths, rs + [r], failing) == (before.0 + [step.0], step.1)
  {
    assert (rs + [r])[..|rs|] == rs;
  }

  /** What one outcome adds to the three counters of `executeRenames`
      (`execute_renames` keeps the first and the last): renamed, skipped,
      failed. */
  function Count(o: Outcome): (nat, nat, nat)
  {
    match o
    case Renamed => (1, 0, 0)
    case Failed => (0, 0, 1)
    case _ => (0, 1, 0)
  }

  function Add(a: (nat, nat, nat), b: (nat, nat, nat)): (nat, nat, nat)
  {
    (a.0 + b.0, a.1 + b.1, a.2 + b.2)
  }

  function Tally(outs: seq<Outcome>): (nat, nat, nat)
  {
    if outs == [] then (0, 0, 0) else Add(Tally(outs[..|outs| - 1]), Count(outs[|outs| - 1]))
  }

  lemma TallySnoc(outs: seq<Outcome>, o: Outcome)
    ensures Tally(outs + [o]) == Add(Tally(outs), Count(o))
  {
    assert (outs + [o])[..|outs|] == outs;
  }

  /** One iteration of the inner loop, on the file tree. */
  method ExecuteOne(tree: FileTree, r: Rename, fails: bool) returns (outcome: Outcome)
    modifies tree
    ensures (outcome, tree.paths) == Step(old(tree.paths), r, fails)
  {
    if r.oldPath !in tree.paths {
      return Missing;
    }
    if r.newPath in tree.paths && r.oldPath != r.newPath {
      return Occupied;
    }
    if r.oldName == r.newName {
      return AlreadyNamed;
    }
    var ok := tree.Rename(r.oldPath, r.newPath, fails);
    outcome := if ok then Renamed else Failed;
  }

  lemma FlattenSnoc(ks: seq<string>, i: nat, m: map<string, Category>)
    requires i < |ks| && forall k :: k in ks ==> k in m
    ensures FlattenKeys(ks[..i + 1], m) == FlattenKeys(ks[..i], m) + m[ks[i]].renames
  {
    assert ks[..i + 1][..i] == ks[..i];
  }

  /** One iteration of the inner loop, continuing from the `done` renames
      before it and counting its outcome. */
  method ExecuteNext(tree: FileTree, ghost start: set<string>, ghost done: seq<Rename>,
                     r: Rename, failing: set<nat>, pos: nat, counts: (nat, nat, nat))
    returns (counts': (nat, nat, nat))
    requires pos == |done|
    requires tree.paths == Run(start, done, failing).1 && counts == Tally(Run(start, done, failing).0)
    modifies tree
    ensures tree.paths == Run(start, done + [r], failing).1
    ensures counts' == Tally(Run(start, done + [r], failing).0)
  {
    RunSnoc(start, done, r, failing);
    TallySnoc(Run(start, done, failing).0, Step(tree.paths, r, pos in failing).0);
    var outcome := ExecuteOne(tree, r, pos in failing);
    var (success, skip, errors) := counts;
    if outcome == Renamed {
      success := success + 1;
    } else if outcome == Failed {
      errors := errors + 1;
    } else {
      skip := skip + 1;
    }
    counts' := (success, skip, errors);
  }

  lemma TakeSnoc(done: seq<Rename>, renames: seq<Rename>, j: nat)
    requires j < |renames|
    ensures done + renames[..j + 1] == done + renames[..j] + [renames[j]]
  {
    assert renames[..j + 1] == renames[..j] + [renames[j]];
  }

  /** The inner loop of `execute_renames` / `executeRenames` over the
      renames of one category, continuing from the `done` renames before it. */
  method ExecuteCategory(tree: FileTree, ghost start: set<string>, ghost done: seq<Rename>,
                         renames: seq<Rename>, failing: set<nat>, pos0: nat, counts: (nat, nat, nat))
    returns (counts': (nat, nat, nat))
    requires pos0 == |done|
    requires tree.paths == Run(start, done, failing).1 && counts == Tally(Run(start, done, failing).0)
    modifies tree
    ensures tree.paths == Run(start, done + renames, failing).1
    ensures counts' == Tally(Run(start, done + renames, failing).0)
  {
    counts' := counts;
    var pos := pos0;
    var j := 0;
    assert done + renames[..0] == done;
    while j < |renames|
      invariant 0 <= j <= |renames|
      invariant pos == |done| + j
      invariant tree.paths == Run(start, done + renames[..j], failing).1
      invariant counts' == Tally(Run(start, done + renames[..j], failing).0)
    {
      TakeSnoc(done, renames, j);
      counts' := ExecuteNext(tree, start, done + renames[..j], renames[j], failing, pos, counts');
      pos := pos + 1;
      j := j + 1;
    }
    assert renames[..j] == renames;
  }

  /** `execute_renames` / `executeRenames`: the counters, and the tree
      afterwards, are those of running the flattened plan. */
  method ExecuteRenames(tree: FileTree, plan: Plan, failing: set<nat>) returns (success: nat, skip: nat, errors: nat)
    requires Valid(plan.categories)
    modifies tree
    ensures tree.paths == Run(old(tree.paths), Flatten(plan.categories), failing).1
    ensures (success, skip, errors) == Tally(Run(old(tree.paths), Flatten(plan.categories), failing).0)
  {
    ghost var start := tree.paths;
    var keys := plan.categories.keys;
    var cats := plan.categories.values;
    var counts := (0, 0, 0);
    var pos := 0;
    var i := 0;
    while i < |keys|
      invariant 0 <= i <= |keys|
      invariant pos == |FlattenKeys(keys[..i], cats)|
      invariant tree.paths == Run(start, FlattenKeys(keys[..i], cats), failing).1
      invariant counts == Tally(Run(start, FlattenKeys(keys[..i], cats), failing).0)
    {
      FlattenSnoc(keys, i, cats);
      var renames := cats[keys[i]].renames;
      counts := ExecuteCategory(tree, start, FlattenKeys(keys[..i], cats), renames, failing, pos, counts);
      pos := pos + |renames|;
      i := i + 1;
    }
    assert keys[..|keys|] == keys;
    success, skip, errors := counts.0, counts.1, counts.2;
  }

  // ---------------------------------------------------------------------
  // What executing a plan does.

  /** Every rename is counted exactly once: as renamed, skipped or failed. */
  lemma {:induction false} RunCountsAddUp(paths: set<string>, rs: seq<Rename>, failing: set<nat>)
    ensures var t := Tally(Run(paths, rs, failing).0); t.0 + t.1 + t.2 == |rs|
  {
    if rs != [] {
      var n := |rs|;
      RunCountsAddUp(paths, rs[..n - 1], failing);
      var before := Run(paths, rs[..n - 1], failing);
      var o := Run(paths, rs, failing).0[n - 1];
      assert Run(paths, rs, failing).0 == before.0 + [o];
      TallySnoc(before.0, o);
      assert Count(o).0 + Count(o).1 + Count(o).2 == 1;
    }
  }

  /** Without reported errors nothing fails. */
  lemma {:induction false} RunWithoutFailures(paths: set<string>, rs: seq<Rename>, failing: set<nat>)
    requires forall i :: i in failing ==> i >= |rs|
    ensures Tally(Run(paths, rs, failing).0).2 == 0
  {
    if rs != [] {
      var n := |rs|;
      RunWithoutFailures(paths, rs[..n - 1], failing);
      var before := Run(paths, rs[..n - 1], failing);
      TallySnoc(before.0, Step(before.1, rs[n - 1], n - 1 in failing).0);
    }
  }

  /** Renaming never creates or destroys a file: as many paths exist
      afterwards as before, since a rename never overwrites. */
  lemma {:induction false} RunKeepsFileCount(paths: set<string>, rs: seq<Rename>, failing: set<nat>)
    ensures |Run(paths, rs, failing).1| == |paths|
  {
    if rs != [] {
      RunKeepsFileCount(paths, rs[..|rs| - 1], failing);
    }
  }

  predicate Touches(rs: seq<Rename>, q: string)
  {
    exists i :: 0 <= i < |rs| && (rs[i].oldPath == q || rs[i].newPath == q)
  }

  /** A path that no planned rename names, old or new, is left as it was. */
  lemma {:induction false} RunFrame(paths: set<string>, rs: seq<Rename>, failing: set<nat>, q: string)
    requires !Touches(rs, q)
    ensures q in Run(paths, rs, failing).1 <==> q in paths
  {
    if rs != [] {
      var n := |rs|;
      assert !Touches(rs[..n - 1], q) by {
        forall i | 0 <= i < n - 1 ensures rs[..n - 1][i] == rs[i] { }
      }
      assert rs[n - 1].oldPath != q && rs[n - 1].newPath != q;
      RunFrame(paths, rs[..n - 1], failing, q);
    }
  }

  /** The renames the scripts report as successful are exactly the moves
      that happened: after a successful rename its old path is gone (unless
      it was its own target) and its new path exists. */
  lemma StepRenamedMoves(paths: set<string>, r: Rename, fails: bool)
    ensures Step(paths, r, fails).0 == Renamed ==>
      r.newPath in Step(paths, r, fails).1 &&
      (r.oldPath != r.newPath ==> r.oldPath !in Step(paths, r, fails).1)
  {
  }

  // ---------------------------------------------------------------------
  // The two entry points.

  /** The categories in sorted order, each with the rows it lists. The rows
      are the corrected ones: they agree with `display_plan` as written
      except for a category of six or seven renames. */
  function DisplayPlan(p: Plan): (r: seq<(string, Shown)>)
    requires Valid(p.categories)
    ensures |r| == |p.categories.keys|
    ensures forall i, j :: 0 <= i < j < |r| ==> LexLe(r[i].0, r[j].0) && r[i].0 != r[j].0
    ensures forall i :: 0 <= i < |r| ==> r[i].0 in p.categories.values && Accounts(r[i].1, |p.categories.values[r[i].0].renames|)
    ensures forall i :: 0 <= i < |r| ==>
      var n := |p.categories.values[r[i].0].renames|; n != 6 && n != 7 ==> r[i].1 == ShownRows(n)
  {
    var ks := SortBy(p.categories.keys, Identity);
    SortedKeys(p.categories);
    SortBySorted(p.categories.keys, Identity);
    var rows := seq(|ks|, i requires 0 <= i < |ks| => (ks[i], DisplayRows(|p.categories.values[ks[i]].renames|)));
    assert forall i :: 0 <= i < |rows| ==> Accounts(rows[i].1, |p.categories.values[rows[i].0].renames|) by {
      forall i | 0 <= i < |rows| ensures Accounts(rows[i].1, |p.categories.values[rows[i].0].renames|) {
        DisplayRowsAccounts(|p.categories.values[ks[i]].renames|);
      }
    }
    rows
  }

  datatype RenameRun =
    | Exited                    // the Images folder could not be listed: exit status 1
    | DryRunOnly                // the plan was only shown
    | Cancelled                 // the answer was not `yes`
    | Executed(success: nat, skip: nat, errors: nat)

  /** `main` of rename-images.py: plan, show, then rename only when the
      script is not in dry-run mode (it ships with DRY_RUN = True) and the
      answer, stripped and lower-cased, is `yes`. */
  method MainRenamePython(tree: FileTree, root: Option<seq<Entry>>, dryRun: bool, answer: string, failing: set<nat>)
    returns (result: RenameRun, display: seq<(string, Shown)>)
    modifies tree
    ensures root.None? ==> result == Exited
    ensures root.Some? ==> display == DisplayPlan(PlanOf(root.value))
    ensures result.Executed? <==> root.Some? && !dryRun && NormalizeAnswer(answer) == "yes"
    ensures !result.Executed? ==> tree.paths == old(tree.paths)
    ensures root.Some? && dryRun ==> result == DryRunOnly
    ensures root.Some? && !dryRun && NormalizeAnswer(answer) != "yes" ==> result == Cancelled
    ensures result.Executed? ==>
      var res := Run(old(tree.paths), Flatten(PlanOf(root.value).categories), failing);
      tree.paths == res.1 && (result.success, result.skip, result.errors) == Tally(res.0)
  {
    var plan := PlanRenames(root);
    if plan.None? {
      return Exited, [];
    }
    display := DisplayPlan(plan.value);
    if dryRun {
      return DryRunOnly, display;
    }
    if NormalizeAnswer(answer) == "yes" {
      var success, skip, errors := ExecuteRenames(tree, plan.value, failing);
      result := Executed(success, skip, errors);
    } else {
      result := Cancelled;
    }
  }

  /** `main` of rename-images.js: plan and rename at once, no prompt. */
  method MainRenameNode(tree: FileTree, root: Option<seq<Entry>>, failing: set<nat>) returns (result: RenameRun)
    modifies tree
    ensures root.None? <==> result == Exited
    ensures root.None? ==> tree.paths == old(tree.paths)
    ensures root.Some? ==>
      var res := Run(old(tree.paths), Flatten(PlanOf(root.value).categories), failing);
      tree.paths == res.1 && result == Executed(Tally(res.0).0, Tally(res.0).1, Tally(res.0).2)
  {
    var plan := PlanRenames(root);
    if plan.None? {
      return Exited;
    }
    var success, skip, errors := ExecuteRenames(tree, plan.value, failing);
    result := Executed(success, skip, errors);
  }
}

=== FILE: rename_plan.dfy ===
/** The planning half of the renamer (rename-images, Python and JavaScript):
    for every category of the Images folder, the list of renames that gives
    its images the names `--bg-<category>-<number><ext>`, numbered in sorted
    order for a folder and in listing order for the loose images of
    `other`, together with the file and category totals. */
module RenamePlan {
  import opened Text
  import opened Listing
  import opened Dicts
  import opened ImageData
  import opened FileNames

  /** One planned rename: the file names and the full paths, old and new. */
  datatype Rename = Rename(oldName: string, newName: string, oldPath: string, newPath: string)

  /** A category of the plan: its folder and its renames in order. */
  datatype Category = Category(path: string, renames: seq<Rename>)

  datatype Plan = Plan(categories: Dict<Category>, totalFiles: nat, totalCategories: nat)

  /** The names of a folder's entries that `keep` accepts, read in sorted
      order, or nothing when the folder cannot be listed. */
  function SortedCollect(listing: Option<seq<Entry>>, keep: Entry -> bool): seq<string>
  {
    match listing
    case None => []
    case Some(es) => Select(SortBy(es, EntryName), keep)
  }

  /** What the renamer's `get_images_from_dir` returns: the folder's images in
      sorted order. */
  function SortedImages(listing: Option<seq<Entry>>): seq<string>
  {
    SortedCollect(listing, IsImageFile)
  }

  /** Sorting loses nothing: a folder contributes as many names as it does
      unsorted, and the sorted images are ordered and are the folder's images. */
  lemma SortedCollectSpec(listing: Option<seq<Entry>>, keep: Entry -> bool)
    ensures |SortedCollect(listing, keep)| == |Collect(listing, keep)|
    ensures multiset(SortedCollect(listing, keep)) == multiset(Collect(listing, keep))
    ensures SortedBy(SortedCollect(listing, keep), Identity)
  {
    if listing.Some? {
      var es := listing.value;
      SelectSortCommute(es, keep);
      SortByPermutes(Select(es, keep), Identity);
      SortBySorted(Select(es, keep), Identity);
      assert |SortBy(Select(es, keep), Identity)| == |multiset(SortBy(Select(es, keep), Identity))|;
    }
  }

  /** `get_images_from_dir` of rename-images.py: walk the sorted listing,
      skip directories, keep the supported suffixes. */
  method GetSortedImagesFromDir(listing: Option<seq<Entry>>) returns (images: seq<string>)
    ensures images == SortedImages(listing)
  {
    images := [];
    if listing.Some? {
      var es := SortBy(listing.value, EntryName);
      var i := 0;
      while i < |es|
        invariant 0 <= i <= |es|
        invariant images == ImageNames(es[..i])
      {
        SelectSnoc(es, i, IsImageFile);
        var item := es[i];
        if !item.Folder? {
          if IsImageName(item.name) {
            images := images + [item.name];
          }
        }
        i := i + 1;
      }
      assert es[..|es|] == es;
    }
  }

  /** The rename planned for the image at position m (from 0) of a category
      of n images kept in `dir`: number m + 1 out of n, same extension. */
  function Planned(category: string, dir: string, images: seq<string>, m: nat): Rename
    requires m < |images|
  {
    var nf := NewFilename(category, m + 1, |images|, Suffix(images[m]));
    Rename(images[m], nf, Join(dir, images[m]), Join(dir, nf))
  }

  function CategoryRenames(category: string, dir: string, images: seq<string>): (r: seq<Rename>)
    ensures |r| == |images|
  {
    seq(|images|, m requires 0 <= m < |images| => Planned(category, dir, images, m))
  }

  /** The `enumerate(images, 1)` / `images.forEach` loop of one folder. */
  method PlanCategory(category: string, dir: string, images: seq<string>) returns (renames: seq<Rename>)
    ensures renames == CategoryRenames(category, dir, images)
  {
    renames := [];
    var m := 0;
    while m < |images|
      invariant 0 <= m <= |images| && |renames| == m
      invariant forall k :: 0 <= k < m ==> renames[k] == Planned(category, dir, images, k)
    {
      var ext := Suffix(images[m]);
      var newName := NewFilename(category, m + 1, |images|, ext);
      renames := renames + [Rename(images[m], newName, Join(dir, images[m]), Join(dir, newName))];
      m := m + 1;
    }
  }

  /** A loose image before numbering: its new name is its old one. */
  function Placeholder(name: string): Rename
  {
    Rename(name, name, Join(ImagesDir, name), Join(ImagesDir, name))
  }

  function Placeholders(names: seq<string>): (r: seq<Rename>)
    ensures |r| == |names|
  {
    seq(|names|, m requires 0 <= m < |names| => Placeholder(names[m]))
  }

  /** The second pass over `other`: entry m (from 0) of n gets number m + 1
      out of n and a new path in the Images folder; its old name and old
      path stay as they are. */
  function Renumbered(rs: seq<Rename>, m: nat): Rename
    requires m < |rs|
  {
    var nf := NewFilename(Other, m + 1, |rs|, Suffix(rs[m].oldName));
    rs[m].(newName := nf, newPath := Join(ImagesDir, nf))
  }

  function Renumber(rs: seq<Rename>): (r: seq<Rename>)
    ensures |r| == |rs|
  {
    seq(|rs|, m requires 0 <= m < |rs| => Renumbered(rs, m))
  }

  /** Numbering the placeholders gives exactly the renames of a folder called
      `other` located at the Images folder itself. */
  lemma RenumberPlaceholders(names: seq<string>)
    ensures Renumber(Placeholders(names)) == CategoryRenames(Other, ImagesDir, names)
  {
    var a, b := Renumber(Placeholders(names)), CategoryRenames(Other, ImagesDir, names);
    forall m | 0 <= m < |names| ensures a[m] == b[m] {
      assert Placeholders(names)[m] == Placeholder(names[m]);
    }
  }

  /** One pass of the planning loop: a folder with images becomes (or
      replaces) its category, with its renames and its count added to the
      totals; a loose image is appended to `other`, created at the Images
      folder when missing, as a placeholder. `keep` is the image test. */
  function PlanStep(p: Plan, e: Entry, keep: Entry -> bool): (r: Plan)
    requires Valid(p.categories)
    ensures Valid(r.categories)
  {
    match e
    case Folder(name, listing) =>
      var images := SortedCollect(listing, keep);
      if images != [] then
        var dir := Join(ImagesDir, name);
        Plan(Put(p.categories, name, Category(dir, CategoryRenames(name, dir, images))),
             p.totalFiles + |images|, p.totalCategories + 1)
      else p
    case File(name) =>
      if keep(e) then
        var c := if Other in p.categories.values then p.categories.values[Other] else Category(ImagesDir, []);
        p.(categories := Put(p.categories, Other, c.(renames := c.renames + [Placeholder(name)])))
      else p
  }

  function FirstPassBy(es: seq<Entry>, keep: Entry -> bool): (r: Plan)
    ensures Valid(r.categories)
  {
    if es == [] then Plan(Empty(), 0, 0)
    else PlanStep(FirstPassBy(es[..|es| - 1], keep), es[|es| - 1], keep)
  }

  lemma FirstPassStep(es: seq<Entry>, i: nat, keep: Entry -> bool)
    requires i < |es|
    ensures FirstPassBy(es[..i + 1], keep) == PlanStep(FirstPassBy(es[..i], keep), es[i], keep)
  {
    assert es[..i + 1][..i] == es[..i];
  }

  /** After the loop: `other`, when present, is numbered and counted. */
  function Finish(p: Plan): (r: Plan)
    requires Valid(p.categories)
    ensures Valid(r.categories)
  {
    if Other in p.categories.values then
      var c := p.categories.values[Other];
      Plan(Put(p.categories, Other, c.(renames := Renumber(c.renames))),
           p.totalFiles + |c.renames|, p.totalCategories + 1)
    else p
  }

  /** The plan `plan_renames` / `planRenames` builds from the listing of the
      Images folder. */
  function PlanOf(es: seq<Entry>): (r: Plan)
    ensures Valid(r.categories)
  {
    Finish(FirstPassBy(es, IsImageFile))
  }

  /** The body of the planning loop for one entry of the Images folder. */
  method AddPlanEntry(p: Plan, item: Entry) returns (p': Plan)
    requires Valid(p.categories)
    ensures p' == PlanStep(p, item, IsImageFile)
  {
    p' := p;
    if item.Folder? {
      var images := GetSortedImagesFromDir(item.listing);
      if images != [] {
        var dir := Join(ImagesDir, item.name);
        var renames := PlanCategory(item.name, dir, images);
        p' := Plan(Put(p.categories, item.name, Category(dir, renames)),
                   p.totalFiles + |images|, p.totalCategories + 1);
      }
    } else if IsImageName(item.name) {
      var cats := p.categories;
      if Other !in cats.values {
        cats := Put(cats, Other, Category(ImagesDir, []));
      }
      var c := cats.values[Other];
      var c' := c.(renames := c.renames + [Placeholder(item.name)]);
      if Other !in p.categories.values {
        PutPut(p.categories, Other, Category(ImagesDir, []), c');
      }
      p' := p.(categories := Put(cats, Other, c'));
    }
  }

  /** One pass of the renumbering loop: the rename at `m` is still the
      original one, and renumbering it extends the renumbered prefix. */
  lemma RenumberStep(rs: seq<Rename>, cur: seq<Rename>, m: nat)
    requires m < |cur| == |rs|
    requires forall k :: 0 <= k < m ==> cur[k] == Renumbered(rs, k)
    requires cur[m..] == rs[m..]
    ensures cur[m] == rs[m]
    ensures var next := cur[m := Renumbered(rs, m)];
      (forall k :: 0 <= k < m + 1 ==> next[k] == Renumbered(rs, k)) && next[m + 1..] == rs[m + 1..]
  {
    assert cur[m..][0] == rs[m..][0];
    var next := cur[m := Renumbered(rs, m)];
    assert next[m + 1..] == cur[m + 1..] == cur[m..][1..];
  }

  /** The in-place second pass over the renames of `other`. */
  method RenumberOther(rs: seq<Rename>) returns (rs': seq<Rename>)
    ensures rs' == Renumber(rs)
  {
    rs' := rs;
    var m := 0;
    while m < |rs'|
      invariant 0 <= m <= |rs'| == |rs|
      invariant forall k :: 0 <= k < m ==> rs'[k] == Renumbered(rs, k)
      invariant rs'[m..] == rs[m..]
    {
      var info := rs'[m];
      RenumberStep(rs, rs', m);
      var ext := Suffix(info.oldName);
      var newName := NewFilename(Other, m + 1, |rs'|, ext);
      rs' := rs'[m := info.(newName := newName, newPath := Join(ImagesDir, newName))];
      m := m + 1;
    }
  }

  /** `plan_renames` / `planRenames`. An unreadable Images folder ends the
      program with status 1, modelled as None. */
  method PlanRenames(root: Option<seq<Entry>>) returns (plan: Option<Plan>)
    ensures root.None? <==> plan.None?
    ensures root.Some? ==> plan.value == PlanOf(root.value)
  {
    if root.None? {
      return None;
    }
    var es := root.value;
    var p := Plan(Empty(), 0, 0);
    var i := 0;
    while i < |es|
      invariant 0 <= i <= |es|
      invariant p == FirstPassBy(es[..i], IsImageFile)
    {
      FirstPassStep(es, i, IsImageFile);
      p := AddPlanEntry(p, es[i]);
      i := i + 1;
    }
    assert es[..|es|] == es;
    if Other in p.categories.values {
      var c := p.categories.values[Other];
      var renamed := RenumberOther(c.renames);
      p := Plan(Put(p.categories, Other, c.(renames := renamed)),
                p.totalFiles + |c.renames|, p.totalCategories + 1);
    }
    return Some(p);
  }
}

=== FILE: text.dfy ===
/** ASCII string helpers shared by both scripts: lower-casing, whitespace
    stripping of an answer typed at a prompt, code-point lexicographic order
    and the sort that Python's `sorted` and JavaScript's `Array.prototype.sort`
    perform on names. */
module Text {

  function LowerChar(c: char): (r: char)
    ensures 'A' <= c <= 'Z' ==> r as int == c as int + 32
    ensures !('A' <= c <= 'Z') ==> r == c
  {
    if 'A' <= c <= 'Z' then (c as int + 32) as char else c
  }

  /** `str.lower()` / `String.prototype.toLowerCase()` restricted to ASCII letters. */
  function Lower(s: string): (r: string)
    ensures |r| == |s|
    ensures forall i :: 0 <= i < |s| ==> r[i] == LowerChar(s[i])
  {
    if s == [] then [] else [LowerChar(s[0])] + Lower(s[1..])
  }

  /** The ASCII characters Python's `str.strip()` removes (`str.isspace`):
      space, tab, line feed, vertical tab, form feed, carriage return and the
      four separators 28..31. */
  predicate IsSpace(c: char)
  {
    c == ' ' || (9 <= c as int <= 13) || (28 <= c as int <= 31)
  }

  function StripStart(s: string): (r: string)
    ensures |r| <= |s| && r == s[|s| - |r|..]
    ensures r != [] ==> !IsSpace(r[0])
    ensures forall i :: 0 <= i < |s| - |r| ==> IsSpace(s[i])
  {
    if s != [] && IsSpace(s[0]) then StripStart(s[1..]) else s
  }

  function StripEnd(s: string): (r: string)
    ensures |r| <= |s| && r == s[..|r|]
    ensures r != [] ==> !IsSpace(r[|r| - 1])
    ensures forall i :: |r| <= i < |s| ==> IsSpace(s[i])
  {
    if s != [] && IsSpace(s[|s| - 1]) then StripEnd(s[..|s| - 1]) else s
  }

  /** `str.strip()`. */
  function Trim(s: string): string
  {
    StripEnd(StripStart(s))
  }

  /** `answer.strip().lower()`, the normalisation both prompts apply. */
  function NormalizeAnswer(answer: string): string
  {
    Lower(Trim(answer))
  }

  /** Whitespace in front does not change the stripped text. */
  lemma TrimCons(c: char, s: string)
    requires IsSpace(c)
    ensures Trim([c] + s) == Trim(s)
  {
    assert ([c] + s)[1..] == s;
  }

  /** Whitespace at the end does not change the stripped text. */
  lemma {:induction false} TrimSnoc(s: string, c: char)
    requires IsSpace(c)
    ensures Trim(s + [c]) == Trim(s)
  {
    if s == [] {
      assert StripStart([c]) == StripStart([c][1..]);
    } else if IsSpace(s[0]) {
      assert (s + [c])[1..] == s[1..] + [c];
      TrimSnoc(s[1..], c);
    } else {
      assert StripStart(s + [c]) == s + [c];
      assert (s + [c])[..|s|] == s;
    }
  }

  lemma LowerIdempotent(s: string)
    ensures Lower(Lower(s)) == Lower(s)
  {
    assert forall i :: 0 <= i < |s| ==> Lower(Lower(s))[i] == LowerChar(LowerChar(s[i]));
  }

  lemma {:induction false} StripStartLower(s: string)
    ensures StripStart(Lower(s)) == Lower(StripStart(s))
  {
    if s != [] {
      var l := Lower(s);
      assert l[0] == LowerChar(s[0]);
      assert IsSpace(l[0]) == IsSpace(s[0]);
      if IsSpace(s[0]) {
        assert l[1..] == Lower(s[1..]);
        assert StripStart(l) == StripStart(Lower(s[1..]));
        StripStartLower(s[1..]);
      } else {
        assert StripStart(l) == l && StripStart(s) == s;
      }
    }
  }

  lemma {:induction false} StripEndLower(s: string)
    ensures StripEnd(Lower(s)) == Lower(StripEnd(s))
  {
    if s != [] {
      var n := |s|;
      assert Lower(s)[..n - 1] == Lower(s[..n - 1]);
      StripEndLower(s[..n - 1]);
    }
  }

  /** Lower-casing first changes nothing in what `answer.strip().lower()` gives. */
  lemma NormalizeIgnoresCase(answer: string)
    ensures NormalizeAnswer(Lower(answer)) == NormalizeAnswer(answer)
  {
    StripStartLower(answer);
    StripEndLower(StripStart(answer));
    LowerIdempotent(Trim(answer));
  }

  // ---------------------------------------------------------------------
  // Lexicographic order on code points (Python `<` on str; JavaScript's
  // default sort compares UTF-16 units, which coincide for ASCII names).

  predicate LexLe(a: string, b: string)
  {
    a == [] || (b != [] && (a[0] < b[0] || (a[0] == b[0] && LexLe(a[1..], b[1..]))))
  }

  predicate LexLess(a: string, b: string)
  {
    LexLe(a, b) && a != b
  }

  lemma {:induction false} LexLeTotal(a: string, b: string)
    ensures LexLe(a, b) || LexLe(b, a)
  {
    if a != [] && b != [] && a[0] == b[0] { LexLeTotal(a[1..], b[1..]); }
  }

  lemma {:induction false} LexLeTrans(a: string, b: string, c: string)
    requires LexLe(a, b) && LexLe(b, c)
    ensures LexLe(a, c)
  {
    if a != [] && a[0] == b[0] && b[0] == c[0] { LexLeTrans(a[1..], b[1..], c[1..]); }
  }

  /** A strict difference inside two equally long prefixes survives any suffixes. */
  lemma {:induction false} LexLessAppend(a: string, b: string, x: string, y: string)
    requires |a| == |b| && LexLess(a, b)
    ensures LexLess(a + x, b + y)
  {
    if a[0] == b[0] {
      assert a[1..] != b[1..] by { assert a == [a[0]] + a[1..] && b == [b[0]] + b[1..]; }
      LexLessAppend(a[1..], b[1..], x, y);
      assert (a + x)[1..] == a[1..] + x && (b + y)[1..] == b[1..] + y;
    }
  }

  /** A common prefix does not change how two strings compare. */
  lemma {:induction false} LexLessPrefix(h: string, a: string, b: string)
    requires LexLess(a, b)
    ensures LexLess(h + a, h + b)
  {
    if h != [] {
      LexLessPrefix(h[1..], a, b);
      assert (h + a)[1..] == h[1..] + a && (h + b)[1..] == h[1..] + b;
      assert (h + a)[0] == h[0] == (h + b)[0];
    } else {
      assert h + a == a && h + b == b;
    }
  }

  /** Two strings that differ only in their last character compare by that character. */
  lemma {:induction false} LexLessLast(a: string, x: char, y: char)
    requires x < y
    ensures LexLess(a + [x], a + [y])
  {
    if a == [] {
    } else {
      LexLessLast(a[1..], x, y);
      assert (a + [x])[1..] == a[1..] + [x] && (a + [y])[1..] == a[1..] + [y];
    }
  }

  // ---------------------------------------------------------------------
  // Sorting by a string key (insertion sort; equal keys never occur among
  // the names of one directory).

  predicate SortedBy<T>(s: seq<T>, key: T -> string)
  {
    forall i, j :: 0 <= i < j < |s| ==> LexLe(key(s[i]), key(s[j]))
  }

  predicate AllAtLeast<T>(b: string, s: seq<T>, key: T -> string)
  {
    forall i :: 0 <= i < |s| ==> LexLe(b, key(s[i]))
  }

  function Insert<T>(x: T, s: seq<T>, key: T -> string): seq<T>
  {
    if s == [] then [x]
    else if LexLe(key(x), key(s[0])) then [x] + s
    else [s[0]] + Insert(x, s[1..], key)
  }

  function SortBy<T>(s: seq<T>, key: T -> string): seq<T>
  {
    if s == [] then [] else Insert(s[0], SortBy(s[1..], key), key)
  }

  lemma {:induction false} InsertPermutes<T>(x: T, s: seq<T>, key: T -> string)
    ensures multiset(Insert(x, s, key)) == multiset(s) + multiset{x}
  {
    if s != [] && !LexLe(key(x), key(s[0])) {
      InsertPermutes(x, s[1..], key);
      assert s == [s[0]] + s[1..];
    }
  }

  /** Sorting keeps every element, each as often as it occurs. */
  lemma {:induction false} SortByPermutes<T>(s: seq<T>, key: T -> string)
    ensures multiset(SortBy(s, key)) == multiset(s)
  {
    if s != [] {
      SortByPermutes(s[1..], key);
      InsertPermutes(s[0], SortBy(s[1..], key), key);
      assert s == [s[0]] + s[1..];
    }
  }

  lemma {:induction false} InsertLowerBound<T>(b: string, x: T, s: seq<T>, key: T -> string)
    requires LexLe(b, key(x)) && AllAtLeast(b, s, key)
    ensures AllAtLeast(b, Insert(x, s, key), key)
  {
    if s != [] && !LexLe(key(x), key(s[0])) {
      InsertLowerBound(b, x, s[1..], key);
    }
  }

  lemma {:induction false} InsertSorted<T>(x: T, s: seq<T>, key: T -> string)
    requires SortedBy(s, key)
    ensures SortedBy(Insert(x, s, key), key)
  {
    if s == [] {
    } else if LexLe(key(x), key(s[0])) {
      var r := [x] + s;
      forall i, j | 0 <= i < j < |r| ensures LexLe(key(r[i]), key(r[j])) {
        if i == 0 && j > 1 {
          assert LexLe(key(s[0]), key(s[j - 1]));
          LexLeTrans(key(x), key(s[0]), key(s[j - 1]));
        }
      }
    } else {
      LexLeTotal(key(x), key(s[0]));
      InsertSorted(x, s[1..], key);
      InsertLowerBound(key(s[0]), x, s[1..], key);
    }
  }

  lemma {:induction false} SortBySorted<T>(s: seq<T>, key: T -> string)
    ensures SortedBy(SortBy(s, key), key)
  {
    if s != [] {
      SortBySorted(s[1..], key);
      InsertSorted(s[0], SortBy(s[1..], key), key);
    }
  }
}
